=== FILE: README.md ===
# Canteen order and balance ledger, in Dafny

This project models the core of a school canteen system. Students pay for meal
orders from a prepaid balance, and cooks move the orders through the kitchen.
A cancelled order is refunded to the student's balance. Around that ledger sit
a few small rule sets, each modelled here as well:

- the account rules: balance top-up, the subscription day counter, allergies and the ban flag;
- the procurement applications cooks file and administrators approve or reject;
- the client-side cart;
- the pagination arithmetic;
- the role gate of the API;
- the role filter of the navigation menu.

Every backend operation that can fail is a pure function returning a
`Result`: either the next state or a typed error. The cart, the menu filter and
the pagination arithmetic cannot fail and return plain values. Each error kind maps to the HTTP status the backend answers
with (`Wrappers.StatusCode`). The backend rolls the database session back on
every error path, so a failed call changes nothing. Orders and applications are
stored in creation order, and their id is their position. Timestamps are whole
seconds, and a day is `Accounts.DAY` = 86400 seconds.

Files, one module each: `wrappers.dfy` (Option, Result, error kinds), `enums.dfy`
(order status and user role with their stored names), `accounts.dfy`
(backend/app/crud/user.py), `orders.dfy` and `order_proofs.dfy`
(backend/app/crud/order.py), `applications.dfy` (backend/app/crud/application.py),
`cart.dfy` (frontend/app/context/CartContext.tsx), `pagination.dfy`
(backend/app/crud/paginating.py), `auth.dfy` (backend/app/core/security/auth.py),
`menu.dfy` (frontend/app/hooks/useMenu.ts), `facts.dfy` (arithmetic and
set-counting facts the others share).

Behaviour of the code worth knowing, which the model reproduces:

- A cancelled order is refunded at the catalog prices of the moment of
  cancellation, not at prices captured when the order was paid. With unchanged
  prices the refund equals the debit (`OrderProofs.RefundMatchesDebit`). After a
  price change it does not (`OrderProofs.RepricedRefundDiffers`).
- There is no subscription scheduler: the code creates no batch of future
  orders, skips no weekdays, charges nothing for a subscription and has no
  subscription cancellation. A subscription purchase only moves the day counter. It extends an active subscription instead of refusing
  it.
- The code reads and writes `user.balance` (order.py:107, 112 and 229,
  user.py:155), and user creation passes `balance=None` (user.py:96). The User
  table class (backend/app/models/user.py:10-30) declares no `balance` column. The model
  assumes the column exists, with an integer value, as the ordering and refund
  code evidently expects; see "## Left out".
- An order asking for the same dish on two lines passes the "all dishes found"
  check, because that check compares against the set of requested ids. The
  order is then priced with both lines. The commit, however, breaks the
  `(order_id, dish_id)` key of order_items, and the rollback answers 500
  (`StorageFailure`). Applications behave the same way with the
  `(application_id, ingredient_id)` key.
- `reject` stores a rejection reason only when the application record has a
  `rejection_reason` attribute. The Application table (models/application.py)
  has no such column, so no reason is ever stored. The model keeps the guard
  (`ReasonSlot`), and every created application has `NoSlot`.
- The remaining-days count is at most the purchased day count, and strictly
  smaller once any time has passed since the start of the window. The purchase
  response is computed from a second reading of the clock, taken after the
  commit, so a purchase that opens a new d-day window answers d − 1 remaining
  days whenever the clock has moved on between the two readings
  (`Accounts.FreshPurchaseReport`).

## Model

| member | source | states |
|---|---|---|
| Enums.StatusNameRoundTrip | backend/app/core/enums.py:15-19 | the four order statuses have distinct stored names ("paid", "prepared", "served", "cancelled"), each parsing back to its status |
| Enums.RoleNameRoundTrip | backend/app/core/enums.py:4-7 | the three roles have distinct stored names that parse back |
| Accounts.UpdateBalance | backend/app/crud/user.py:144-164 | the balance moves by exactly the given amount and no other field of the account changes |
| Accounts.UpdateBalanceInverse | backend/app/crud/user.py:152-156 | a credit followed by a debit of the same amount restores the account |
| Accounts.UpdateBalanceCompose | backend/app/crud/user.py:152-156 | two adjustments equal one adjustment by their sum |
| Accounts.Subscription | backend/app/crud/user.py:202-223 | active iff a start is recorded, the day count is non-zero and now is before start + days; the remaining days are the whole days left before the end (0 when inactive, never negative); an unset start is reported as now |
| Accounts.DaysRemainingBounded | backend/app/crud/user.py:210-215 | once started, remaining days never exceed the purchased days, and fall strictly below them after the start instant |
| Accounts.ExtendSubscription | backend/app/crud/user.py:182-191 | an active subscription keeps its start and gains the days; an absent or expired one restarts at now with exactly the requested days; nothing else changes |
| Accounts.PurchaseSubscription | backend/app/crud/user.py:167-196 | negative days are refused (422), an unknown user is 404, a banned user is refused (400); otherwise that user's account becomes exactly the extended subscription (an active one gains the days, an absent or expired one restarts at the purchase instant), no other user or field changes, and the returned view is computed from the updated account at the later second clock reading |
| Accounts.FreshPurchaseReport | backend/app/crud/user.py:178-215 | a purchase that opens a new window reports exactly the bought days only if the response clock reading equals the purchase instant; if it is later by less than a day, it reports one day fewer |
| Accounts.PurchaseActivates | backend/app/crud/user.py:182-191 | buying a positive number of days always leaves the subscription active, and extends an active window's end by exactly those days |
| Accounts.BannedPurchaseRefused | backend/app/crud/user.py:176-177 | a banned user's purchase fails with 400 |
| Accounts.RemoveFirst | backend/app/crud/user.py:277 | list removal drops one occurrence: one shorter, same multiset minus that element |
| Accounts.AddAllergy | backend/app/crud/user.py:238-257 | unknown user or ingredient is 404, an ingredient already listed is 400; otherwise the list grows by exactly that ingredient at the end and no other user or field changes |
| Accounts.RemoveAllergy | backend/app/crud/user.py:259-279 | unknown user or unlisted ingredient is 404; otherwise exactly one occurrence of that ingredient is removed and nothing else changes |
| Accounts.RemoveFirstFromDistinct | backend/app/crud/user.py:269-277 | on a duplicate-free list, removal keeps every other ingredient, drops that one, and stays duplicate-free |
| Accounts.AddThenRemoveAllergy | backend/app/crud/user.py:238-279 | adding keeps the list duplicate-free, and removing the added ingredient gives back the original users |
| Accounts.SwitchBan | backend/app/crud/user.py:281-285 | unknown user is 404; otherwise the flag is negated, the new value is returned, nothing else changes |
| Accounts.SwitchBanTwice | backend/app/crud/user.py:281-285 | switching twice restores the users |
| Facts.FoundCountIff | backend/app/crud/order.py:97 | the number of requested ids found equals the number of requested ids exactly when every requested id is found |
| Orders.FoundAllIff | backend/app/crud/order.py:91-99 | comparing the count of found dishes with the count of distinct requested ids holds exactly when every requested dish is in the catalog |
| Orders.CostOfConcat | backend/app/crud/order.py:101-104 | the cost of a list of lines is the sum of the costs of any split of it into a prefix and a suffix, so accumulating line by line from the front gives the same total |
| Orders.ComputeTotal | backend/app/crud/order.py:101-104 | the accumulation loop yields Σ price × quantity over the requested lines |
| Orders.Find | backend/app/crud/order.py:28-43 | an order id resolves iff it exists, otherwise 404 |
| Orders.Create | backend/app/crud/order.py:78-159 | unknown user 404, a quantity below 1 is 422, an empty list 400, an unknown dish 400, a balance below the total 400, a dish repeated on two lines 500; success iff all checks pass and dishes are distinct; on success the balance drops by exactly Σ price × quantity and stays non-negative, and one PAID order with no completion time and exactly the requested lines is appended |
| Orders.MarkReady | backend/app/crud/order.py:161-181 | succeeds iff the order exists and is PAID (else 404 or 409); only that order's status changes, to READY; balances untouched |
| Orders.MarkPrepared | backend/app/crud/order.py:183-192 | the same guard and effect as mark_ready |
| Orders.MarkServed | backend/app/crud/order.py:194-204 | succeeds iff the order is PAID or READY (SERVED or CANCELLED is 409); the order becomes SERVED with completion time now; balances and other orders untouched |
| Orders.Cancel | backend/app/crud/order.py:206-236 | SERVED or CANCELLED is 409; otherwise the owner is credited exactly Σ current price × quantity over the order's lines, the order becomes CANCELLED and nothing else changes |
| OrderProofs.OperationsFollowTransitionTable | backend/app/crud/order.py:161-236 | every successful operation moves each existing order only along PAID→READY, PAID/READY→SERVED, PAID/READY→CANCELLED (or leaves it), and new orders are PAID |
| OrderProofs.TerminalIsFinal | backend/app/crud/order.py:165-219 | a SERVED or CANCELLED order refuses mark_ready, mark_prepared, mark_served and cancel with 409 |
| OrderProofs.ServeTwiceConflicts | backend/app/crud/order.py:198-202 | a second mark_served after a successful one is 409 |
| OrderProofs.CancelTwiceConflicts | backend/app/crud/order.py:212-219 | a second cancel is 409, so an order is refunded at most once |
| OrderProofs.CostNonNegative | backend/app/crud/order.py:221-223 | with non-negative prices and quantities of at least one, an order's cost is non-negative |
| OrderProofs.OperationsPreserveValid | backend/app/crud/order.py:107-112 | no order operation (create, mark_ready, mark_prepared, mark_served, cancel) makes a balance negative or stores a line with quantity below 1 or a repeated dish |
| OrderProofs.HeldAfterStore | backend/app/crud/order.py:229-233 | replacing one order changes a user's held amount by the difference of that order's two shares |
| OrderProofs.CreateConservesWealth | backend/app/crud/order.py:101-159 | a successful create moves exactly the order's cost from the owner's balance into the new held order, so every user's balance plus held orders is unchanged |
| OrderProofs.StatusChangeConservesWealth | backend/app/crud/order.py:161-204 | replacing one live order by a live order with the same owner and lines, with accounts untouched, leaves every user's balance plus held orders unchanged |
| OrderProofs.CancelConservesWealth | backend/app/crud/order.py:206-236 | a successful cancel moves exactly the order's current cost from the held orders back to the owner's balance, so every user's total is unchanged |
| OrderProofs.OperationsConserveWealth | backend/app/crud/order.py:78-236 | with prices unchanged, each user's balance plus the cost of their non-cancelled orders is the same before and after every operation |
| OrderProofs.RefundMatchesDebit | backend/app/crud/order.py:221-229 | cancelling a just-created order at unchanged prices gives back the users exactly as they were before the order |
| OrderProofs.RepricedRefundDiffers | backend/app/crud/order.py:221-223 | a price rise from 300 to 500 between create and cancel turns a 1000 balance into 1200: the refund is re-priced |
| OrderProofs.CreateCancelScenario | backend/app/crud/order.py:101-236 | balance 1000 and an order of 300: create leaves 700, cancel restores 1000 and sets CANCELLED, a second cancel is 409 |
| Applications.FoundAllIff | backend/app/crud/application.py:83-88 | the count comparison holds exactly when every requested ingredient exists |
| Applications.Create | backend/app/crud/application.py:62-108 | a quantity below 1 is 422, an empty list 400, an unknown ingredient 400, an ingredient repeated on two lines 500; success iff these pass and ingredients are distinct; a PAID application with exactly the requested products is appended |
| Applications.Approve | backend/app/crud/application.py:110-125 | succeeds iff the application exists and is PAID (else 404 or 409); it becomes SERVED and nothing else changes |
| Applications.Reject | backend/app/crud/application.py:127-150 | succeeds iff PAID; it becomes CANCELLED; the reason is stored only when the record has the attribute and a non-empty reason is given |
| Applications.DecidedIsFinal | backend/app/crud/application.py:117-145 | SERVED and CANCELLED applications refuse approve and reject with 409 |
| Applications.DecideOnce | backend/app/crud/application.py:139-147 | a new application can be approved or rejected, not both, and its rejection never stores a reason |
| Cart.TotalsNonNegative | frontend/app/context/CartContext.tsx:67-73 | the price total and the item total are never negative when no price or quantity is |
| Cart.TotalsFromFront | frontend/app/context/CartContext.tsx:67-73 | both totals equal the first line's contribution plus the totals of the remaining lines |
| Cart.TotalsMatchReduce | frontend/app/context/CartContext.tsx:67-73 | the source's left-to-right `reduce` from an accumulator yields the accumulator plus the totals, so from 0 it yields exactly the totals |
| Cart.AddToCart | frontend/app/context/CartContext.tsx:30-44 | a dish already in the cart gets its quantity raised by the amount and keeps its stored record, with no line added; a new dish is appended as one line |
| Cart.RemoveFromCart | frontend/app/context/CartContext.tsx:46-48 | the result holds exactly the lines of other dishes, and none of the removed dish |
| Cart.UpdateQuantity | frontend/app/context/CartContext.tsx:50-61 | a quantity of 0 or less is removal; otherwise only the matching line's quantity is replaced, length and order unchanged |
| Cart.ClearCart | frontend/app/context/CartContext.tsx:63-65 | the empty cart, with both totals zero |
| Cart.OperationsKeepDishesUnique | frontend/app/context/CartContext.tsx:30-61 | add, remove and update keep dish ids unique |
| Cart.RemoveKeepsUnique | frontend/app/context/CartContext.tsx:46-48 | removal keeps dish ids unique |
| Cart.RemoveDropsOneLine | frontend/app/context/CartContext.tsx:46-48 | with unique ids, removing a present dish drops exactly its line and keeps the rest in order |
| Cart.RemoveAbsent | frontend/app/context/CartContext.tsx:46-48 | removing an absent dish leaves the cart as it was |
| Cart.AddToLineTotals | frontend/app/context/CartContext.tsx:32-39 | adding q of a dish already on a line raises the item total by q and the price total by q × that line's stored price |
| Cart.AddToCartTotals | frontend/app/context/CartContext.tsx:30-73 | adding q raises the item total by q and the price total by q × the stored price of that dish |
| Cart.RemoveFromCartTotals | frontend/app/context/CartContext.tsx:46-73 | removing a line lowers both totals by exactly that line |
| Cart.UpdateQuantityTotals | frontend/app/context/CartContext.tsx:50-73 | setting a positive quantity moves both totals by the difference from the old quantity |
| Pagination.Offset | backend/app/crud/paginating.py:17 | the offset of a page of at least 1 is never negative |
| Pagination.PageCount | backend/app/crud/paginating.py:23 | pages is 0 iff total is 0, and otherwise (pages − 1) × size < total ≤ pages × size |
| Pagination.Paginate | backend/app/crud/paginating.py:13-30 | total is the unpaginated count, the page is echoed, the items are the rows from offset (page − 1) × size onwards, at most size of them, and pages is the ceiling of total / size (0 for size 0) |
| Pagination.PagesUpToIsPrefix | backend/app/crud/paginating.py:17-21 | pages 1..n laid end to end are exactly the first n × size rows |
| Pagination.AllPagesCoverRows | backend/app/crud/paginating.py:17-23 | walking every page returns every row once, in order |
| Pagination.PaginateAsWritten | backend/app/crud/paginating.py:13-30 | a parameter object without a `page` or `size` attribute fails (500) after the count query and before the page query; with both present, a non-negative size gives the paging by that size, and a negative one (which SQLite reads as offset 0 and no limit) gives every row with page count 0 |
| Pagination.PaginateAsWrittenAlwaysFails | backend/app/crud/paginating.py:17 | reading `params.size` from PaginationParams fails on every call |
| Pagination.PaginateParams | backend/app/schemas/paginating.py:6-8 | paging with the declared `limit` yields the unpaginated total, the echoed page, exactly min(limit, rows left) rows starting at (page − 1) × limit (none past the end), and the ceiling page count, which is 0 exactly when there are no rows |
| Pagination.CorrectedReadsLimitAsSize | backend/app/crud/paginating.py:17-23 | the corrected paging is exactly what the code as written computes when `size` carries the declared limit |
| Auth.CurrentUser | backend/app/core/security/auth.py:12-22 | a token whose type is not "access" is 401; otherwise the user named by `sub`, or 404 |
| Auth.RequireRoles | backend/app/core/security/auth.py:25-39 | passes iff the role is admin or listed, returning the same user unchanged; otherwise 403 |
| Auth.Guard | backend/app/core/security/auth.py:12-39 | the full dependency succeeds iff the token is an access token for an existing user whose role is admin or listed |
| Auth.AdminPassesEveryGate | backend/app/core/security/auth.py:29-30 | admin passes every gate; with no roles listed nobody else does |
| Auth.GateMonotone | backend/app/core/security/auth.py:32-36 | listing more roles never locks out a user who passed |
| Menu.VisibleMenu | frontend/app/hooks/useMenu.ts:6-15 | every visible item's key, icon and label appear in the output, which is no longer than the input |
| Menu.VisibleIndicesPickVisible | frontend/app/hooks/useMenu.ts:8-13 | the picked positions are in range and strictly increasing, and a position is picked exactly when its item is visible |
| Menu.VisibleMenuProjectsIndices | frontend/app/hooks/useMenu.ts:8-14 | the output has one entry per picked position, and entry k is the key, icon and label of the item at the k-th picked position |
| Menu.VisibleMenuIsOrderedSubsequence | frontend/app/hooks/useMenu.ts:8-13 | the output is the projection of the items at strictly increasing positions, and a position is picked exactly when its item has no roles or lists the user's (defined) role |
| Menu.ShownIffVisible | frontend/app/hooks/useMenu.ts:9-11 | with unique keys, an entry is shown iff its item is visible to the role |
| Menu.AppMenu | frontend/app/constants/menuItems.tsx:23-91 | eleven entries with distinct keys; /menu, /orders, /reviews and /notifications carry no roles and are open to everyone, every other entry lists at least one role |
| Menu.AdminMissesStudentEntry | frontend/app/constants/menuItems.tsx:50-55 | in the application's menu an administrator does not see the student-only subscriptions entry, and a student does |

## Left out

- Database sessions, queries, eager loading, flush/commit/refresh: each operation is one atomic pure step, which is what the rollback on every error path gives.
- Concurrency: balances are read from the cached user object and status changes are read-then-write without locks. A sequential model cannot state anything about those races.
- Notifications to cooks and customers after create and mark_ready: fire-and-forget I/O whose failure is logged and swallowed.
- Clocks: each `datetime.now()` is a parameter. `purchase_subscription` reads the clock for the counter update (`now`) and again for its response (`viewNow`, never earlier); the view's fallback start for an unset start is a third reading, which the model takes to be the same as the second. Timestamps are truncated to whole seconds, so the model admits `viewNow == now`, where a purchase that opens a new window reports the full day count. The source's clock has microsecond resolution and a commit and refresh lie between the two readings, so in practice it answers d − 1.
- Token decoding (signature, expiry, blacklist) and loading the user object: the decoded payload and the users map are inputs.
- Listing and filtering orders, users and applications: their logic is the query filters (by user, status and date range) and the pagination arithmetic; only the latter is modelled.
- Catalog, menu, ingredient, review and token CRUD, reports, statistics and PDF generation: these are not part of this model.
- No subscription scheduler: the code has no batch orders, weekday skipping, subscription charge or subscription cancellation, so there is nothing to model.
- Orders.Create: assumes the User table has an integer `balance` column. With the table class as declared, reading `user.balance` at order.py:107 raises AttributeError, which order.py:156-159 turns into 500 for every request that passes the dish checks. The model instead debits the balance.
- Orders.Cancel: assumes the same `balance` column. As declared, `user.balance += refund_amount` at order.py:229 raises, uncaught, and the order stays as it was. The model instead credits the refund.
- Accounts.UpdateBalance: assumes the same `balance` column. As declared, `user.balance + new_money` at user.py:155 raises, and user.py:163-164 answers 400. The model instead adjusts the balance.
- Orders.Create: the balance check and debit read the stored account, not a copy cached earlier in the request.
- Cart.TotalPrice: JavaScript numbers are floating point; the model uses unbounded integers.
- Pagination.PageCount: `math.ceil(total / size)` divides in floating point; the model uses exact integer ceiling.
- Auth.RequireRoles: the allowed roles are strings compared with the role's stored name, as in the source; the role of a user is always one of the three enum values.

## Findings

| source | as written | input that shows it | evidently intended | confidence | as-written member | corrected member |
|---|---|---|---|---|---|---|
| backend/app/crud/paginating.py:17 | the offset and limit read `params.size`, but PaginationParams declares only `page` and `limit` | any call, e.g. page 1, limit 10: the attribute lookup raises after the count query, before the page query runs | the page size is `params.limit` | high, not executed | Pagination.PaginateAsWrittenAlwaysFails | Pagination.PaginateParams |

=== FILE: accounts.dfy ===
/** The account-side rules of backend/app/crud/user.py: balance adjustment, the
    subscription day counter and its derived view, the allergy list and the ban
    flag. Users live in a map from user id to account; timestamps are whole
    seconds. */
module Accounts {
  import opened Wrappers
  import opened Enums

  /** Length of one day in the timestamp unit (seconds). */
  const DAY: int := 86400

  /** The fields of a user the ledger reads or writes. `allergies` is the
      ordered list behind the user_allergies association. `balance` is the
      attribute the order and user code read and write; the User table class
      (backend/app/models/user.py) declares no such column, and the model
      assumes one. */
  datatype Account = Account(
    role: UserRole,
    balance: int,
    banned: bool,
    subscriptionStart: Option<int>,
    subscriptionDays: int,
    allergies: seq<int>)

  type Users = map<int, Account>

  /** The subscription view returned to clients. */
  datatype SubscriptionInfo = SubscriptionInfo(
    userId: int,
    subscriptionStart: int,
    subscriptionDays: int,
    daysRemaining: int,
    isActive: bool)

  /** `update_balance`: the balance becomes the old balance plus `newMoney`
      (negative amounts debit). */
  function UpdateBalance(a: Account, newMoney: int): (r: Account)
    ensures r.balance - a.balance == newMoney
    ensures r.(balance := a.balance) == a
  {
    a.(balance := a.balance + newMoney)
  }

  /** Crediting and then debiting the same amount restores the account. */
  lemma UpdateBalanceInverse(a: Account, amount: int)
    ensures UpdateBalance(UpdateBalance(a, amount), -amount) == a
  {
  }

  /** Two adjustments compose into one adjustment by their sum. */
  lemma UpdateBalanceCompose(a: Account, x: int, y: int)
    ensures UpdateBalance(UpdateBalance(a, x), y) == UpdateBalance(a, x + y)
  {
  }

  // ---------------------------------------------------------------------------
  // Subscription counter

  /** Python truthiness of the two subscription fields: a start is recorded and
      the day count is non-zero. */
  predicate HasSubscription(a: Account)
  {
    a.subscriptionStart.Some? && a.subscriptionDays != 0
  }

  /** The end of the subscription window, `start + days` days. */
  function SubscriptionEnd(a: Account): int
    requires HasSubscription(a)
  {
    a.subscriptionStart.value + a.subscriptionDays * DAY
  }

  /** `_calculate_subscription_response`: active when the window has not ended,
      remaining days are the whole days left in it; an unset start reads as
      `now`, unset days as 0. */
  function Subscription(a: Account, userId: int, now: int): (r: SubscriptionInfo)
    ensures r.userId == userId
    ensures r.isActive <==>
              a.subscriptionStart.Some? && a.subscriptionDays != 0
              && now < a.subscriptionStart.value + a.subscriptionDays * DAY
    ensures !r.isActive ==> r.daysRemaining == 0
    ensures r.isActive ==>
              var left := a.subscriptionStart.value + a.subscriptionDays * DAY - now;
              r.daysRemaining * DAY <= left < (r.daysRemaining + 1) * DAY
    ensures r.daysRemaining >= 0
    ensures r.subscriptionStart == (if a.subscriptionStart.Some? then a.subscriptionStart.value else now)
    ensures r.subscriptionDays == a.subscriptionDays
  {
    var start := if a.subscriptionStart.Some? then a.subscriptionStart.value else now;
    if HasSubscription(a) && now < SubscriptionEnd(a) then
      SubscriptionInfo(userId, start, a.subscriptionDays, (SubscriptionEnd(a) - now) / DAY, true)
    else
      SubscriptionInfo(userId, start, a.subscriptionDays, 0, false)
  }

  /** Once the subscription has started, the remaining whole days never exceed
      the purchased day count, and fall strictly below it after the first second. */
  lemma {:induction false} DaysRemainingBounded(a: Account, userId: int, now: int)
    requires a.subscriptionStart.Some? && a.subscriptionStart.value <= now
    ensures Subscription(a, userId, now).daysRemaining <= a.subscriptionDays || !Subscription(a, userId, now).isActive
    ensures a.subscriptionStart.value < now && Subscription(a, userId, now).isActive ==>
              Subscription(a, userId, now).daysRemaining < a.subscriptionDays
  {
    var r := Subscription(a, userId, now);
    if r.isActive {
      var left := a.subscriptionStart.value + a.subscriptionDays * DAY - now;
      assert r.daysRemaining * DAY <= left <= a.subscriptionDays * DAY;
    }
  }

  /** The counter update of `purchase_subscription` on an account already
      allowed to buy: an active window is extended, anything else restarts at
      `now`. */
  function ExtendSubscription(a: Account, days: int, now: int): (r: Account)
    ensures r.(subscriptionStart := a.subscriptionStart, subscriptionDays := a.subscriptionDays) == a
    ensures Subscription(a, 0, now).isActive ==>
              r.subscriptionStart == a.subscriptionStart && r.subscriptionDays == a.subscriptionDays + days
    ensures !Subscription(a, 0, now).isActive ==>
              r.subscriptionStart == Some(now) && r.subscriptionDays == days
  {
    if HasSubscription(a) && SubscriptionEnd(a) > now then
      a.(subscriptionDays := a.subscriptionDays + days)
    else
      a.(subscriptionStart := Some(now), subscriptionDays := days)
  }

  /** `purchase_subscription`: the request body must carry `days >= 0`, the
      user must exist and must not be banned. Returns the updated users and the
      subscription view. The counter is updated at the instant `now`; the view
      is computed after the commit, from a second reading of the clock,
      `viewNow`, which is never earlier. */
  function PurchaseSubscription(users: Users, userId: int, days: int, now: int, viewNow: int): (r: Result<(Users, SubscriptionInfo)>)
    requires now <= viewNow
    ensures days < 0 ==> r == Err(InvalidField)
    ensures days >= 0 && userId !in users ==> r == Err(NotFound)
    ensures days >= 0 && userId in users && users[userId].banned ==> r == Err(BannedUser)
    ensures r.Ok? <==> days >= 0 && userId in users && !users[userId].banned
    ensures r.Ok? ==>
              userId in users && userId in r.value.0 &&
              var a := users[userId];
              var a' := r.value.0[userId];
              && r.value.0 == users[userId := a']
              && a' == ExtendSubscription(a, days, now)
              && a'.(subscriptionStart := a.subscriptionStart, subscriptionDays := a.subscriptionDays) == a
              && r.value.1 == Subscription(a', userId, viewNow)
  {
    if days < 0 then Err(InvalidField)
    else if userId !in users then Err(NotFound)
    else if users[userId].banned then Err(BannedUser)
    else
      var a' := ExtendSubscription(users[userId], days, now);
      Ok((users[userId := a'], Subscription(a', userId, viewNow)))
  }

  /** Buying a positive number of days always leaves the subscription active,
      and never moves the end of an active window earlier. */
  lemma {:induction false} PurchaseActivates(a: Account, days: int, now: int)
    requires days > 0 && a.subscriptionDays >= 0
    ensures Subscription(ExtendSubscription(a, days, now), 0, now).isActive
    ensures Subscription(a, 0, now).isActive ==>
              SubscriptionEnd(ExtendSubscription(a, days, now)) == SubscriptionEnd(a) + days * DAY
  {
    var a' := ExtendSubscription(a, days, now);
    if Subscription(a, 0, now).isActive {
      assert a'.subscriptionDays == a.subscriptionDays + days;
    } else {
      assert a' == a.(subscriptionStart := Some(now), subscriptionDays := days);
      assert now < now + days * DAY;
    }
  }

  /** A banned user's purchase fails and cannot change the subscription fields. */
  lemma BannedPurchaseRefused(users: Users, userId: int, days: int, now: int, viewNow: int)
    requires userId in users && users[userId].banned && days >= 0 && now <= viewNow
    ensures PurchaseSubscription(users, userId, days, now, viewNow) == Err(BannedUser)
  {
  }

  /** A purchase that starts a new window reports the purchased day count only
      when the view is computed in the purchase instant itself. Once the clock
      has moved on, by less than a day, the floor of the remaining time reports
      one day fewer than were bought. */
  lemma {:induction false} FreshPurchaseReport(users: Users, userId: int, days: int, now: int, viewNow: int)
    requires userId in users && !users[userId].banned && days >= 1
    requires !Subscription(users[userId], 0, now).isActive
    requires now <= viewNow < now + DAY
    ensures PurchaseSubscription(users, userId, days, now, viewNow).Ok?
    ensures viewNow == now ==> PurchaseSubscription(users, userId, days, now, viewNow).value.1.daysRemaining == days
    ensures viewNow > now ==> PurchaseSubscription(users, userId, days, now, viewNow).value.1.daysRemaining == days - 1
  {
    var a' := ExtendSubscription(users[userId], days, now);
    assert a'.subscriptionStart == Some(now) && a'.subscriptionDays == days;
    var v := Subscription(a', userId, viewNow);
    assert v.isActive;
    var left := now + days * DAY - viewNow;
    assert v.daysRemaining * DAY <= left < (v.daysRemaining + 1) * DAY;
    if viewNow > now {
      assert (days - 1) * DAY < left < days * DAY;
    } else {
      assert left == days * DAY;
    }
  }

  // ---------------------------------------------------------------------------
  // Allergies

  /** No ingredient appears twice in a list. */
  predicate NoDuplicates(s: seq<int>)
  {
    forall i, j :: 0 <= i < j < |s| ==> s[i] != s[j]
  }

  /** `list.remove`: drops the first occurrence of `x`. */
  function RemoveFirst(s: seq<int>, x: int): (r: seq<int>)
    requires x in s
    ensures |r| == |s| - 1
    ensures multiset(r) == multiset(s) - multiset{x}
  {
    assert s == [s[0]] + s[1..];
    if s[0] == x then s[1..]
    else [s[0]] + RemoveFirst(s[1..], x)
  }

  /** `add_allergy`: the user and the ingredient must exist and the ingredient
      must not already be listed; it is then appended. */
  function AddAllergy(users: Users, ingredients: set<int>, userId: int, ingredientId: int): (r: Result<Users>)
    ensures userId !in users ==> r == Err(NotFound)
    ensures userId in users && ingredientId !in ingredients ==> r == Err(NotFound)
    ensures userId in users && ingredientId in ingredients && ingredientId in users[userId].allergies ==>
              r == Err(AlreadyPresent)
    ensures r.Ok? <==> userId in users && ingredientId in ingredients && ingredientId !in users[userId].allergies
    ensures r.Ok? ==>
              && r.value.Keys == users.Keys
              && (forall u :: u in users && u != userId ==> r.value[u] == users[u])
              && r.value[userId].allergies == users[userId].allergies + [ingredientId]
              && r.value[userId].(allergies := users[userId].allergies) == users[userId]
  {
    if userId !in users then Err(NotFound)
    else if ingredientId !in ingredients then Err(NotFound)
    else if ingredientId in users[userId].allergies then Err(AlreadyPresent)
    else
      var a := users[userId];
      Ok(users[userId := a.(allergies := a.allergies + [ingredientId])])
  }

  /** `remove_allergy`: the user must exist and the ingredient must be listed;
      its entry is then removed. */
  function RemoveAllergy(users: Users, userId: int, ingredientId: int): (r: Result<Users>)
    ensures userId !in users ==> r == Err(NotFound)
    ensures userId in users && ingredientId !in users[userId].allergies ==> r == Err(NotFound)
    ensures r.Ok? <==> userId in users && ingredientId in users[userId].allergies
    ensures r.Ok? ==>
              && r.value.Keys == users.Keys
              && (forall u :: u in users && u != userId ==> r.value[u] == users[u])
              && multiset(r.value[userId].allergies) == multiset(users[userId].allergies) - multiset{ingredientId}
              && r.value[userId].(allergies := users[userId].allergies) == users[userId]
  {
    if userId !in users then Err(NotFound)
    else if ingredientId !in users[userId].allergies then Err(NotFound)
    else
      var a := users[userId];
      Ok(users[userId := a.(allergies := RemoveFirst(a.allergies, ingredientId))])
  }

  /** Removing from a duplicate-free list drops exactly that ingredient and
      keeps the list duplicate-free. */
  lemma {:induction false} RemoveFirstFromDistinct(s: seq<int>, x: int)
    requires x in s && NoDuplicates(s)
    ensures NoDuplicates(RemoveFirst(s, x))
    ensures forall y :: y in RemoveFirst(s, x) <==> y in s && y != x
  {
    var r := RemoveFirst(s, x);
    forall y
      ensures y in r <==> y in s && y != x
    {
      assert y in r <==> y in multiset(r);
      assert y in s <==> y in multiset(s);
      if y == x {
        assert multiset(s)[x] == 1 by { DistinctCountsOnce(s, x); }
      }
    }
    forall i, j | 0 <= i < j < |r|
      ensures r[i] != r[j]
    {
      if r[i] == r[j] {
        assert multiset(r)[r[i]] >= 2 by { TwoPositionsCountTwice(r, i, j); }
        assert multiset(s)[r[i]] >= 2;
        DistinctCountsOnce(s, r[i]);
        assert false;
      }
    }
  }

  /** In a duplicate-free list every member occurs exactly once. */
  lemma {:induction false} DistinctCountsOnce(s: seq<int>, x: int)
    requires NoDuplicates(s) && x in s
    ensures multiset(s)[x] == 1
  {
    assert s == [s[0]] + s[1..];
    assert NoDuplicates(s[1..]);
    if s[0] == x {
      assert x !in s[1..];
      assert multiset(s[1..])[x] == 0;
    } else {
      DistinctCountsOnce(s[1..], x);
    }
  }

  /** An element held at two positions occurs at least twice. */
  lemma {:induction false} TwoPositionsCountTwice(s: seq<int>, i: int, j: int)
    requires 0 <= i < j < |s| && s[i] == s[j]
    ensures multiset(s)[s[i]] >= 2
  {
    assert s == s[..i] + [s[i]] + s[i + 1..j] + [s[j]] + s[j + 1..];
  }

  /** Adding an allergy keeps the list duplicate-free, and removing it again
      gives back the original list. */
  lemma {:induction false} AddThenRemoveAllergy(users: Users, ingredients: set<int>, userId: int, ingredientId: int)
    requires userId in users && NoDuplicates(users[userId].allergies)
    requires AddAllergy(users, ingredients, userId, ingredientId).Ok?
    ensures NoDuplicates(AddAllergy(users, ingredients, userId, ingredientId).value[userId].allergies)
    ensures RemoveAllergy(AddAllergy(users, ingredients, userId, ingredientId).value, userId, ingredientId) == Ok(users)
  {
    var a := users[userId];
    var s := a.allergies;
    var added := users[userId := a.(allergies := s + [ingredientId])];
    assert AddAllergy(users, ingredients, userId, ingredientId) == Ok(added);
    assert NoDuplicates(s + [ingredientId]) by {
      forall i, j | 0 <= i < j < |s| + 1
        ensures (s + [ingredientId])[i] != (s + [ingredientId])[j]
      {
        if j == |s| {
          assert (s + [ingredientId])[i] == s[i];
        }
      }
    }
    RemoveFirstAppended(s, ingredientId);
    assert added[userId := a] == users;
  }

  /** Removing the first occurrence of an element just appended to a list that
      did not hold it gives back that list. */
  lemma {:induction false} RemoveFirstAppended(s: seq<int>, x: int)
    requires x !in s
    ensures RemoveFirst(s + [x], x) == s
  {
    if s == [] {
    } else {
      assert (s + [x])[1..] == s[1..] + [x];
      RemoveFirstAppended(s[1..], x);
    }
  }

  // ---------------------------------------------------------------------------
  // Ban flag

  /** `switch_ban`: negates the flag and returns its new value. */
  function SwitchBan(users: Users, userId: int): (r: Result<(Users, bool)>)
    ensures userId !in users ==> r == Err(NotFound)
    ensures userId in users ==> r.Ok?
    ensures r.Ok? ==>
              && r.value.1 == !users[userId].banned
              && r.value.0 == users[userId := users[userId].(banned := r.value.1)]
  {
    if userId !in users then Err(NotFound)
    else
      var flag := !users[userId].banned;
      Ok((users[userId := users[userId].(banned := flag)], flag))
  }

  /** Switching the ban twice restores the users. */
  lemma SwitchBanTwice(users: Users, userId: int)
    requires userId in users
    ensures SwitchBan(SwitchBan(users, userId).value.0, userId).value.0 == users
  {
  }
}

=== FILE: applications.dfy ===
/** Procurement applications of backend/app/crud/application.py: a cook asks for
    ingredients; an administrator approves (PAID to SERVED) or rejects (PAID to
    CANCELLED). The backend reuses the order status enumeration. Applications
    are stored in creation order and an application's id is its index. */
module Applications {
  import opened Wrappers
  import opened Enums
  import opened Facts

  datatype Product = Product(ingredientId: int, quantity: int)

  /** Whether an application record carries a `rejection_reason` attribute, and
      its value. The Application table of the repository has no such column, so
      every created application has `NoSlot` and a reason is never stored. */
  datatype ReasonSlot = NoSlot | Slot(reason: Option<string>)

  datatype Application = Application(
    userId: int,
    createdAt: int,
    status: OrderStatus,
    products: seq<Product>,
    rejection: ReasonSlot)

  predicate KnownIngredients(products: seq<Product>, ingredients: set<int>)
  {
    forall i :: 0 <= i < |products| ==> products[i].ingredientId in ingredients
  }

  predicate DistinctIngredients(products: seq<Product>)
  {
    forall i, j :: 0 <= i < j < |products| ==> products[i].ingredientId != products[j].ingredientId
  }

  predicate ValidQuantities(products: seq<Product>)
  {
    forall i :: 0 <= i < |products| ==> products[i].quantity >= 1
  }

  function IngredientIds(products: seq<Product>): set<int>
  {
    set i | 0 <= i < |products| :: products[i].ingredientId
  }

  /** The source's existence test: as many ingredients found as distinct ids requested. */
  predicate FoundAll(products: seq<Product>, ingredients: set<int>)
  {
    |IngredientIds(products) * ingredients| == |IngredientIds(products)|
  }

  /** Comparing the counts is the same as every requested ingredient existing. */
  lemma {:induction false} FoundAllIff(products: seq<Product>, ingredients: set<int>)
    ensures FoundAll(products, ingredients) <==> KnownIngredients(products, ingredients)
  {
    FoundCountIff(IngredientIds(products), ingredients);
    if !KnownIngredients(products, ingredients) {
      var i :| 0 <= i < |products| && products[i].ingredientId !in ingredients;
      assert products[i].ingredientId in IngredientIds(products);
    }
  }

  /** `create`: every product needs quantity >= 1 (request schema), the list
      must be non-empty and every requested ingredient must exist. The new
      application is PAID and holds one item per requested product. One
      ingredient on two lines breaks the application-item key at commit (500). */
  function Create(apps: seq<Application>, ingredients: set<int>, userId: int, products: seq<Product>, now: int): (r: Result<seq<Application>>)
    ensures !ValidQuantities(products) ==> r == Err(InvalidField)
    ensures ValidQuantities(products) && |products| == 0 ==> r == Err(EmptyRequest)
    ensures ValidQuantities(products) && |products| > 0 && !KnownIngredients(products, ingredients) ==>
              r == Err(UnknownReference)
    ensures ValidQuantities(products) && |products| > 0 && KnownIngredients(products, ingredients)
            && !DistinctIngredients(products) ==>
              r == Err(StorageFailure)
    ensures r.Ok? <==>
              ValidQuantities(products) && |products| > 0 && KnownIngredients(products, ingredients)
              && DistinctIngredients(products)
    ensures r.Ok? ==> r.value == apps + [Application(userId, now, Paid, products, NoSlot)]
  {
    if !ValidQuantities(products) then Err(InvalidField)
    else if |products| == 0 then Err(EmptyRequest)
    else
      FoundAllIff(products, ingredients);
      if !FoundAll(products, ingredients) then Err(UnknownReference)
      else if !DistinctIngredients(products) then Err(StorageFailure)
      else Ok(apps + [Application(userId, now, Paid, products, NoSlot)])
  }

  /** `approve`: only a PAID application may be approved; it becomes SERVED. */
  function Approve(apps: seq<Application>, id: int): (r: Result<seq<Application>>)
    ensures !(0 <= id < |apps|) ==> r == Err(NotFound)
    ensures r.Ok? <==> 0 <= id < |apps| && apps[id].status == Paid
    ensures 0 <= id < |apps| && apps[id].status != Paid ==> r == Err(Conflict)
    ensures r.Ok? ==>
              && |r.value| == |apps|
              && (forall j :: 0 <= j < |apps| && j != id ==> r.value[j] == apps[j])
              && r.value[id].status == Served
              && r.value[id].(status := Paid) == apps[id]
  {
    if !(0 <= id < |apps|) then Err(NotFound)
    else if apps[id].status != Paid then Err(Conflict)
    else Ok(apps[id := apps[id].(status := Served)])
  }

  /** Python truthiness of the optional reason: present and non-empty. */
  predicate GivenReason(reason: Option<string>)
  {
    reason.Some? && |reason.value| > 0
  }

  /** `reject`: only a PAID application may be rejected; it becomes CANCELLED,
      and the reason is recorded when the record has the attribute and a
      non-empty reason was given. */
  function Reject(apps: seq<Application>, id: int, reason: Option<string>): (r: Result<seq<Application>>)
    ensures !(0 <= id < |apps|) ==> r == Err(NotFound)
    ensures r.Ok? <==> 0 <= id < |apps| && apps[id].status == Paid
    ensures 0 <= id < |apps| && apps[id].status != Paid ==> r == Err(Conflict)
    ensures r.Ok? ==>
              && |r.value| == |apps|
              && (forall j :: 0 <= j < |apps| && j != id ==> r.value[j] == apps[j])
              && r.value[id].status == Cancelled
              && r.value[id].(status := Paid, rejection := apps[id].rejection) == apps[id]
              && (!GivenReason(reason) || apps[id].rejection.NoSlot? ==> r.value[id].rejection == apps[id].rejection)
              && (apps[id].rejection.Slot? && GivenReason(reason) ==> r.value[id].rejection == Slot(reason))
  {
    if !(0 <= id < |apps|) then Err(NotFound)
    else
      var a := apps[id];
      if a.status != Paid then Err(Conflict)
      else
        var a' := a.(status := Cancelled);
        var a'' := if a.rejection.Slot? && GivenReason(reason) then a'.(rejection := Slot(reason)) else a';
        Ok(apps[id := a''])
  }

  /** Approved and rejected applications are final: both transitions then conflict. */
  lemma DecidedIsFinal(apps: seq<Application>, id: int, reason: Option<string>)
    requires 0 <= id < |apps| && apps[id].status in {Served, Cancelled}
    ensures Approve(apps, id) == Err(Conflict)
    ensures Reject(apps, id, reason) == Err(Conflict)
  {
  }

  /** A created application can be decided exactly once, and, lacking the
      attribute, a rejection never stores its reason. */
  lemma {:induction false} DecideOnce(apps: seq<Application>, ingredients: set<int>, userId: int, products: seq<Product>, now: int, reason: Option<string>)
    requires Create(apps, ingredients, userId, products, now).Ok?
    ensures var created := Create(apps, ingredients, userId, products, now).value;
            var id := |apps|;
            && Approve(created, id).Ok?
            && Reject(created, id, reason).Ok?
            && Reject(created, id, reason).value[id].rejection == NoSlot
            && Reject(Approve(created, id).value, id, reason) == Err(Conflict)
            && Approve(Reject(created, id, reason).value, id) == Err(Conflict)
  {
    var created := Create(apps, ingredients, userId, products, now).value;
    assert created[|apps|] == Application(userId, now, Paid, products, NoSlot);
  }
}

=== FILE: auth.dfy ===
/** The two decisions of backend/app/core/security/auth.py: `get_current_user`
    accepts only access tokens, and `require_roles` lets an administrator
    through every gate and anyone else only when their role is listed. Token
    decoding (signature, expiry) is outside the model: the decoded payload is
    the input. */
module Auth {
  import opened Wrappers
  import opened Enums
  import opened Accounts

  /** The decoded claims the dependency reads: `type` and `sub` (the user id). */
  datatype TokenPayload = TokenPayload(tokenType: string, sub: int)

  /** `get_current_user`: a token whose type is not "access" is refused with
      401; otherwise the user named by `sub` is loaded (404 if absent). */
  function CurrentUser(users: Users, payload: TokenPayload): (r: Result<Account>)
    ensures payload.tokenType != "access" ==> r == Err(WrongTokenType)
    ensures r.Ok? <==> payload.tokenType == "access" && payload.sub in users
    ensures r.Ok? ==> r.value == users[payload.sub]
    ensures payload.tokenType == "access" && payload.sub !in users ==> r == Err(NotFound)
  {
    if payload.tokenType != "access" then Err(WrongTokenType)
    else if payload.sub !in users then Err(NotFound)
    else Ok(users[payload.sub])
  }

  /** The check inside `require_roles(*allowed_roles)`: the role is compared by
      its string value against the allowed names. */
  function RequireRoles(user: Account, allowedRoles: seq<string>): (r: Result<Account>)
    ensures r.Ok? <==> user.role == Admin || RoleName(user.role) in allowedRoles
    ensures r.Ok? ==> r.value == user
    ensures r.Err? ==> r.error == Forbidden
  {
    if RoleName(user.role) == "admin" then Ok(user)
    else if RoleName(user.role) !in allowedRoles then Err(Forbidden)
    else Ok(user)
  }

  /** The whole dependency: authenticate, then gate by role. */
  function Guard(users: Users, payload: TokenPayload, allowedRoles: seq<string>): (r: Result<Account>)
    ensures r.Ok? <==>
              && payload.tokenType == "access"
              && payload.sub in users
              && (users[payload.sub].role == Admin || RoleName(users[payload.sub].role) in allowedRoles)
    ensures r.Ok? ==> r.value == users[payload.sub]
  {
    var user :- CurrentUser(users, payload);
    RequireRoles(user, allowedRoles)
  }

  /** An administrator passes every gate, even one that lists no roles; with no
      roles listed nobody else passes. */
  lemma AdminPassesEveryGate(user: Account, allowedRoles: seq<string>)
    ensures user.role == Admin ==> RequireRoles(user, allowedRoles) == Ok(user)
    ensures user.role != Admin ==> RequireRoles(user, []) == Err(Forbidden)
  {
  }

  /** Widening the allowed list never locks anyone out. */
  lemma {:induction false} GateMonotone(user: Account, allowedRoles: seq<string>, more: seq<string>)
    requires RequireRoles(user, allowedRoles).Ok?
    ensures RequireRoles(user, allowedRoles + more).Ok?
  {
    if user.role != Admin {
      var i :| 0 <= i < |allowedRoles| && allowedRoles[i] == RoleName(user.role);
      assert (allowedRoles + more)[i] == RoleName(user.role);
    }
  }
}

=== FILE: cart.dfy ===
/** The client cart of frontend/app/context/CartContext.tsx: an ordered list of
    (dish, quantity) lines, at most one per dish id. Every operation returns the
    next list, as the React state updaters do. Prices and quantities are
    integers here (JavaScript numbers in the source). */
module Cart {
  import opened Facts

  datatype Dish = Dish(id: int, name: string, price: int)

  datatype CartItem = CartItem(dish: Dish, quantity: int)

  predicate InCart(items: seq<CartItem>, dishId: int)
  {
    exists i :: 0 <= i < |items| && items[i].dish.id == dishId
  }

  /** No dish id appears on two lines. */
  predicate UniqueDishes(items: seq<CartItem>)
  {
    forall i, j :: 0 <= i < j < |items| ==> items[i].dish.id != items[j].dish.id
  }

  /** `getTotalPrice`: Σ price × quantity, using the dish record stored in the line. */
  function TotalPrice(items: seq<CartItem>): int
  {
    if |items| == 0 then 0
    else TotalPrice(items[..|items| - 1]) + items[|items| - 1].dish.price * items[|items| - 1].quantity
  }

  /** `getTotalItems`: Σ quantity. */
  function TotalItems(items: seq<CartItem>): int
  {
    if |items| == 0 then 0
    else TotalItems(items[..|items| - 1]) + items[|items| - 1].quantity
  }

  /** Neither total is negative when no price or quantity is. */
  lemma {:induction false} TotalsNonNegative(items: seq<CartItem>)
    requires forall i :: 0 <= i < |items| ==> items[i].dish.price >= 0 && items[i].quantity >= 0
    ensures TotalPrice(items) >= 0 && TotalItems(items) >= 0
  {
    if |items| > 0 {
      var last := items[|items| - 1];
      TotalsNonNegative(items[..|items| - 1]);
      NonNegativeProduct(last.dish.price, last.quantity);
    }
  }

  /** The source's `reduce`: a left fold from the first line with an accumulator. */
  function ReducePrice(items: seq<CartItem>, acc: int): int
  {
    if |items| == 0 then acc else ReducePrice(items[1..], acc + items[0].dish.price * items[0].quantity)
  }

  function ReduceItems(items: seq<CartItem>, acc: int): int
  {
    if |items| == 0 then acc else ReduceItems(items[1..], acc + items[0].quantity)
  }

  /** Splitting off the first line instead of the last gives the same totals. */
  lemma {:induction false} TotalsFromFront(items: seq<CartItem>)
    requires |items| > 0
    ensures TotalPrice(items) == items[0].dish.price * items[0].quantity + TotalPrice(items[1..])
    ensures TotalItems(items) == items[0].quantity + TotalItems(items[1..])
  {
    var n := |items|;
    if n > 1 {
      TotalsFromFront(items[..n - 1]);
      assert items[1..][..n - 2] == items[..n - 1][1..];
    }
  }

  /** The totals, written from the last line, agree with the source's left fold
      started at 0. */
  lemma {:induction false} TotalsMatchReduce(items: seq<CartItem>, acc: int)
    ensures ReducePrice(items, acc) == acc + TotalPrice(items)
    ensures ReduceItems(items, acc) == acc + TotalItems(items)
  {
    if |items| > 0 {
      TotalsFromFront(items);
      TotalsMatchReduce(items[1..], acc + items[0].dish.price * items[0].quantity);
      TotalsMatchReduce(items[1..], acc + items[0].quantity);
    }
  }

  /** `addToCart` (the caller's default quantity is 1): a dish already in the
      cart has its quantity raised and keeps its stored dish record; a new dish
      is appended as a new line. */
  function AddToCart(items: seq<CartItem>, dish: Dish, quantity: int): (r: seq<CartItem>)
    ensures !InCart(items, dish.id) ==> r == items + [CartItem(dish, quantity)]
    ensures InCart(items, dish.id) ==>
              && |r| == |items|
              && forall i :: 0 <= i < |items| ==>
                   && r[i].dish == items[i].dish
                   && r[i].quantity == items[i].quantity + (if items[i].dish.id == dish.id then quantity else 0)
  {
    if InCart(items, dish.id) then
      seq(|items|, i requires 0 <= i < |items| =>
        if items[i].dish.id == dish.id then items[i].(quantity := items[i].quantity + quantity) else items[i])
    else
      items + [CartItem(dish, quantity)]
  }

  /** `removeFromCart`: keeps, in order, every line of another dish. */
  function RemoveFromCart(items: seq<CartItem>, dishId: int): (r: seq<CartItem>)
    ensures !InCart(r, dishId)
    ensures forall x :: x in r <==> x in items && x.dish.id != dishId
    ensures |r| <= |items|
  {
    if |items| == 0 then []
    else
      var rest := RemoveFromCart(items[..|items| - 1], dishId);
      var last := items[|items| - 1];
      assert forall x :: x in items <==> x in items[..|items| - 1] || x == last;
      if last.dish.id == dishId then rest else rest + [last]
  }

  /** `updateQuantity`: a quantity of 0 or less removes the dish; otherwise
      that line's quantity is replaced and nothing else changes. */
  function UpdateQuantity(items: seq<CartItem>, dishId: int, quantity: int): (r: seq<CartItem>)
    ensures quantity <= 0 ==> r == RemoveFromCart(items, dishId)
    ensures quantity > 0 ==>
              && |r| == |items|
              && forall i :: 0 <= i < |items| ==>
                   && r[i].dish == items[i].dish
                   && r[i].quantity == (if items[i].dish.id == dishId then quantity else items[i].quantity)
  {
    if quantity <= 0 then RemoveFromCart(items, dishId)
    else
      seq(|items|, i requires 0 <= i < |items| =>
        if items[i].dish.id == dishId then items[i].(quantity := quantity) else items[i])
  }

  /** `clearCart`: the empty cart, whose totals are both zero. */
  function ClearCart(): (r: seq<CartItem>)
    ensures TotalPrice(r) == 0 && TotalItems(r) == 0
    ensures |r| == 0
  {
    []
  }

  // ---------------------------------------------------------------------------
  // Lemmas

  /** Each operation keeps dish ids unique. */
  lemma {:induction false} OperationsKeepDishesUnique(items: seq<CartItem>, dish: Dish, dishId: int, quantity: int)
    requires UniqueDishes(items)
    ensures UniqueDishes(AddToCart(items, dish, quantity))
    ensures UniqueDishes(RemoveFromCart(items, dishId))
    ensures UniqueDishes(UpdateQuantity(items, dishId, quantity))
  {
    RemoveKeepsUnique(items, dishId);
    var a := AddToCart(items, dish, quantity);
    if !InCart(items, dish.id) {
      forall i, j | 0 <= i < j < |a| ensures a[i].dish.id != a[j].dish.id {
        if j == |items| {
          assert a[i] == items[i];
        }
      }
    }
  }

  lemma {:induction false} RemoveKeepsUnique(items: seq<CartItem>, dishId: int)
    requires UniqueDishes(items)
    ensures UniqueDishes(RemoveFromCart(items, dishId))
  {
    if |items| > 0 {
      var init := items[..|items| - 1];
      var last := items[|items| - 1];
      assert UniqueDishes(init);
      RemoveKeepsUnique(init, dishId);
      var rest := RemoveFromCart(init, dishId);
      if last.dish.id != dishId {
        forall x | x in rest ensures x.dish.id != last.dish.id {
          assert x in init;
          var i :| 0 <= i < |init| && init[i] == x;
          assert items[i] == x;
        }
        var r := rest + [last];
        forall i, j | 0 <= i < j < |r| ensures r[i].dish.id != r[j].dish.id {
          if j == |rest| {
            assert r[i] in rest;
          }
        }
      }
    }
  }

  /** With unique dish ids, removing a dish present at position k drops exactly
      that line and keeps the others in their original order. */
  lemma {:induction false} RemoveDropsOneLine(items: seq<CartItem>, k: int)
    requires UniqueDishes(items) && 0 <= k < |items|
    ensures RemoveFromCart(items, items[k].dish.id) == items[..k] + items[k + 1..]
  {
    var n := |items|;
    var init := items[..n - 1];
    assert UniqueDishes(init);
    if k == n - 1 {
      RemoveAbsent(init, items[k].dish.id);
      assert items[..k] + items[k + 1..] == init;
    } else {
      var id := items[k].dish.id;
      assert init[k] == items[k];
      RemoveDropsOneLine(init, k);
      assert items[n - 1].dish.id != id;
      assert RemoveFromCart(items, id) == RemoveFromCart(init, id) + [items[n - 1]];
      assert items[..k] == init[..k];
      assert items[k + 1..] == init[k + 1..] + [items[n - 1]];
    }
  }

  /** Removing a dish that is not in the cart changes nothing. */
  lemma {:induction false} RemoveAbsent(items: seq<CartItem>, dishId: int)
    requires !InCart(items, dishId)
    ensures RemoveFromCart(items, dishId) == items
  {
    if |items| > 0 {
      var init := items[..|items| - 1];
      assert !InCart(init, dishId);
      RemoveAbsent(init, dishId);
      assert init + [items[|items| - 1]] == items;
    }
  }

  /** Totals of a list that differs from another at one position only. */
  lemma {:induction false} TotalsAfterChange(a: seq<CartItem>, b: seq<CartItem>, k: int)
    requires |a| == |b| && 0 <= k < |a|
    requires forall i :: 0 <= i < |a| && i != k ==> a[i] == b[i]
    ensures TotalPrice(b) == TotalPrice(a) - a[k].dish.price * a[k].quantity + b[k].dish.price * b[k].quantity
    ensures TotalItems(b) == TotalItems(a) - a[k].quantity + b[k].quantity
  {
    var n := |a|;
    if k == n - 1 {
      assert a[..n - 1] == b[..n - 1];
    } else {
      TotalsAfterChange(a[..n - 1], b[..n - 1], k);
    }
  }

  /** Totals of a list with one line taken out. */
  lemma {:induction false} TotalsWithoutLine(items: seq<CartItem>, k: int)
    requires 0 <= k < |items|
    ensures TotalPrice(items[..k] + items[k + 1..]) == TotalPrice(items) - items[k].dish.price * items[k].quantity
    ensures TotalItems(items[..k] + items[k + 1..]) == TotalItems(items) - items[k].quantity
  {
    var n := |items|;
    var r := items[..k] + items[k + 1..];
    if k == n - 1 {
      assert r == items[..n - 1];
    } else {
      var init := items[..n - 1];
      TotalsWithoutLine(init, k);
      assert r[..|r| - 1] == init[..k] + init[k + 1..];
      assert r[|r| - 1] == items[n - 1];
    }
  }

  /** Adding q of a dish already on line k raises the item count by q and the
      price total by q times the price stored on that line. */
  lemma {:induction false} AddToLineTotals(items: seq<CartItem>, dish: Dish, quantity: int, k: int)
    requires UniqueDishes(items) && 0 <= k < |items| && items[k].dish.id == dish.id
    ensures TotalItems(AddToCart(items, dish, quantity)) == TotalItems(items) + quantity
    ensures TotalPrice(AddToCart(items, dish, quantity)) == TotalPrice(items) + items[k].dish.price * quantity
  {
    var r := AddToCart(items, dish, quantity);
    assert InCart(items, dish.id) by { assert items[k].dish.id == dish.id; }
    forall i | 0 <= i < |items| && i != k ensures r[i] == items[i] {
      assert items[i].dish.id != dish.id;
    }
    assert r[k] == CartItem(items[k].dish, items[k].quantity + quantity);
    TotalsAfterChange(items, r, k);
    Distribute(items[k].dish.price, items[k].quantity + quantity, items[k].quantity);
  }

  /** Adding q of a dish raises the item count by q and the price total by q
      times the price stored for that dish: the price of the line already in the
      cart, or of the given dish for a new line. */
  lemma {:induction false} AddToCartTotals(items: seq<CartItem>, dish: Dish, quantity: int)
    requires UniqueDishes(items)
    ensures TotalItems(AddToCart(items, dish, quantity)) == TotalItems(items) + quantity
    ensures !InCart(items, dish.id) ==>
              TotalPrice(AddToCart(items, dish, quantity)) == TotalPrice(items) + dish.price * quantity
    ensures forall k :: 0 <= k < |items| && items[k].dish.id == dish.id ==>
              TotalPrice(AddToCart(items, dish, quantity)) == TotalPrice(items) + items[k].dish.price * quantity
  {
    if InCart(items, dish.id) {
      var k :| 0 <= k < |items| && items[k].dish.id == dish.id;
      AddToLineTotals(items, dish, quantity, k);
      forall j | 0 <= j < |items| && items[j].dish.id == dish.id
        ensures TotalPrice(AddToCart(items, dish, quantity)) == TotalPrice(items) + items[j].dish.price * quantity
      {
        AddToLineTotals(items, dish, quantity, j);
      }
    } else {
      var r := AddToCart(items, dish, quantity);
      assert r[..|r| - 1] == items;
    }
  }

  /** Removing the line of dish k lowers the totals by exactly that line. */
  lemma {:induction false} RemoveFromCartTotals(items: seq<CartItem>, k: int)
    requires UniqueDishes(items) && 0 <= k < |items|
    ensures TotalPrice(RemoveFromCart(items, items[k].dish.id)) == TotalPrice(items) - items[k].dish.price * items[k].quantity
    ensures TotalItems(RemoveFromCart(items, items[k].dish.id)) == TotalItems(items) - items[k].quantity
  {
    RemoveDropsOneLine(items, k);
    TotalsWithoutLine(items, k);
  }

  /** Setting a positive quantity on line k moves the totals by the difference. */
  lemma {:induction false} UpdateQuantityTotals(items: seq<CartItem>, k: int, quantity: int)
    requires UniqueDishes(items) && 0 <= k < |items| && quantity > 0
    ensures TotalItems(UpdateQuantity(items, items[k].dish.id, quantity)) == TotalItems(items) - items[k].quantity + quantity
    ensures TotalPrice(UpdateQuantity(items, items[k].dish.id, quantity))
            == TotalPrice(items) + items[k].dish.price * (quantity - items[k].quantity)
  {
    var r := UpdateQuantity(items, items[k].dish.id, quantity);
    forall i | 0 <= i < |items| && i != k ensures r[i] == items[i] {
      assert items[i].dish.id != items[k].dish.id;
    }
    assert r[k] == CartItem(items[k].dish, quantity);
    TotalsAfterChange(items, r, k);
    Distribute(items[k].dish.price, quantity, items[k].quantity);
  }

  lemma Distribute(p: int, a: int, b: int)
    ensures p * (a - b) == p * a - p * b
  {
  }
}

=== FILE: enums.dfy ===
/** The enumerations of backend/app/core/enums.py that the ledger uses, with the
    string values they carry on the wire and in the database. */
module Enums {
  import opened Wrappers

  /** Status of an order, and (reused by the backend) of a procurement application.
      READY is stored as "prepared". */
  datatype OrderStatus = Paid | Ready | Served | Cancelled

  datatype UserRole = Admin | Student | Cook

  function StatusName(s: OrderStatus): string
  {
    match s
    case Paid => "paid"
    case Ready => "prepared"
    case Served => "served"
    case Cancelled => "cancelled"
  }

  function ParseStatus(name: string): (r: Option<OrderStatus>)
    ensures r.Some? ==> StatusName(r.value) == name
  {
    if name == "paid" then Some(Paid)
    else if name == "prepared" then Some(Ready)
    else if name == "served" then Some(Served)
    else if name == "cancelled" then Some(Cancelled)
    else None
  }

  function RoleName(r: UserRole): string
  {
    match r
    case Admin => "admin"
    case Student => "student"
    case Cook => "cook"
  }

  function ParseRole(name: string): (r: Option<UserRole>)
    ensures r.Some? ==> RoleName(r.value) == name
  {
    if name == "admin" then Some(Admin)
    else if name == "student" then Some(Student)
    else if name == "cook" then Some(Cook)
    else None
  }

  /** Every status survives the trip to its stored name and back, so the names are distinct. */
  lemma StatusNameRoundTrip(s: OrderStatus)
    ensures ParseStatus(StatusName(s)) == Some(s)
  {
  }

  lemma RoleNameRoundTrip(r: UserRole)
    ensures ParseRole(RoleName(r)) == Some(r)
  {
  }
}

=== FILE: facts.dfy ===
/** Small arithmetic and set-cardinality facts shared by the order, application,
    cart and pagination modules. */
module Facts {

  lemma NonNegativeProduct(a: int, b: int)
    requires a >= 0 && b >= 0
    ensures a * b >= 0
  {
  }

  /** Counting the requested ids found among the known ones and comparing with
      the number of requested ids is the same as every requested id being known:
      the found and the missing ids split the requested ones. */
  lemma {:induction false} FoundCountIff(requested: set<int>, known: set<int>)
    ensures |requested * known| == |requested| <==> requested <= known
  {
    var found := requested * known;
    var missing := requested - known;
    assert found * missing == {};
    assert found + missing == requested;
    assert |missing| == 0 <==> missing == {};
    assert missing == {} <==> requested <= known;
  }
}

=== FILE: menu.dfy ===
/** The navigation filter of frontend/app/hooks/useMenu.ts over the menu
    entries of frontend/app/constants/menuItems.tsx. Icons are React elements in
    the source; here they are the icon component's name. */
module Menu {
  import opened Wrappers
  import opened Enums

  /** A menu entry; `roles == None` means available to everyone. */
  datatype MenuItem = MenuItem(key: string, icon: string, labelText: string, roles: Option<seq<UserRole>>)

  /** What the hook hands to the menu component: key, icon and label (`labelText`, since `label` is a Dafny keyword) only. */
  datatype Entry = Entry(key: string, icon: string, labelText: string)

  /** An entry without roles is always shown; a restricted one only when the
      user's role is known and listed. */
  predicate Visible(item: MenuItem, userRole: Option<UserRole>)
  {
    item.roles.None? || (userRole.Some? && userRole.value in item.roles.value)
  }

  function Project(item: MenuItem): Entry
  {
    Entry(item.key, item.icon, item.labelText)
  }

  /** `useMenu`: filter by visibility, then keep key, icon and label. */
  function VisibleMenu(items: seq<MenuItem>, userRole: Option<UserRole>): (r: seq<Entry>)
    ensures |r| <= |items|
    ensures forall i :: 0 <= i < |items| && Visible(items[i], userRole) ==> Project(items[i]) in r
  {
    if |items| == 0 then []
    else
      var rest := VisibleMenu(items[..|items| - 1], userRole);
      var last := items[|items| - 1];
      assert forall i :: 0 <= i < |items| - 1 ==> items[..|items| - 1][i] == items[i];
      if Visible(last, userRole) then rest + [Project(last)] else rest
  }

  /** Positions of the visible entries, in increasing order. */
  function VisibleIndices(items: seq<MenuItem>, userRole: Option<UserRole>): seq<int>
  {
    if |items| == 0 then []
    else
      var rest := VisibleIndices(items[..|items| - 1], userRole);
      if Visible(items[|items| - 1], userRole) then rest + [|items| - 1] else rest
  }

  /** The picked positions are in range, strictly increasing, and a position
      is picked exactly when its item is visible. */
  lemma {:induction false} VisibleIndicesPickVisible(items: seq<MenuItem>, userRole: Option<UserRole>)
    ensures var idx := VisibleIndices(items, userRole);
            && (forall k :: 0 <= k < |idx| ==> 0 <= idx[k] < |items|)
            && (forall k, m :: 0 <= k < m < |idx| ==> idx[k] < idx[m])
            && (forall i :: 0 <= i < |items| ==> (i in idx <==> Visible(items[i], userRole)))
  {
    if |items| > 0 {
      var n := |items|;
      var init := items[..n - 1];
      VisibleIndicesPickVisible(init, userRole);
      var idx0 := VisibleIndices(init, userRole);
      assert forall i :: 0 <= i < |init| ==> init[i] == items[i];
      assert n - 1 !in idx0;
    }
  }

  /** The output is the projection of the items at the picked positions. */
  lemma {:induction false} VisibleMenuProjectsIndices(items: seq<MenuItem>, userRole: Option<UserRole>)
    ensures var idx := VisibleIndices(items, userRole);
            && |idx| == |VisibleMenu(items, userRole)|
            && (forall k :: 0 <= k < |idx| ==> 0 <= idx[k] < |items| && VisibleMenu(items, userRole)[k] == Project(items[idx[k]]))
  {
    if |items| > 0 {
      var n := |items|;
      var init := items[..n - 1];
      VisibleMenuProjectsIndices(init, userRole);
      var idx0 := VisibleIndices(init, userRole);
      var out0 := VisibleMenu(init, userRole);
      var idx := VisibleIndices(items, userRole);
      var out := VisibleMenu(items, userRole);
      if Visible(items[n - 1], userRole) {
        assert idx == idx0 + [n - 1];
        assert out == out0 + [Project(items[n - 1])];
        forall k | 0 <= k < |idx|
          ensures 0 <= idx[k] < n && out[k] == Project(items[idx[k]])
        {
          if k < |idx0| {
            assert idx[k] == idx0[k] && out[k] == out0[k];
            assert init[idx0[k]] == items[idx0[k]];
          }
        }
      } else {
        assert idx == idx0 && out == out0;
        forall k | 0 <= k < |idx|
          ensures 0 <= idx[k] < n && out[k] == Project(items[idx[k]])
        {
          assert init[idx0[k]] == items[idx0[k]];
        }
      }
    }
  }

  /** The output is the subsequence of visible items, in their original order:
      it is the projection of the items at strictly increasing positions, and a
      position is picked exactly when its item is visible. */
  lemma VisibleMenuIsOrderedSubsequence(items: seq<MenuItem>, userRole: Option<UserRole>)
    ensures var idx := VisibleIndices(items, userRole);
            && |idx| == |VisibleMenu(items, userRole)|
            && (forall k :: 0 <= k < |idx| ==> 0 <= idx[k] < |items| && VisibleMenu(items, userRole)[k] == Project(items[idx[k]]))
            && (forall k, m :: 0 <= k < m < |idx| ==> idx[k] < idx[m])
            && (forall i :: 0 <= i < |items| ==> (i in idx <==> Visible(items[i], userRole)))
  {
    VisibleIndicesPickVisible(items, userRole);
    VisibleMenuProjectsIndices(items, userRole);
  }

  /** The application's navigation entries: eleven entries with distinct keys,
      of which the menu, orders, reviews and notifications are open to everyone
      and every other entry lists at least one role. */
  function AppMenu(): (m: seq<MenuItem>)
    ensures |m| == 11 && UniqueKeys(m)
    ensures forall i :: 0 <= i < |m| ==>
              (m[i].roles.None? <==> m[i].key in ["/menu", "/orders", "/reviews", "/notifications"])
    ensures forall i :: 0 <= i < |m| && m[i].roles.Some? ==> |m[i].roles.value| > 0
  {
    [ MenuItem("/menu", "AppstoreOutlined", "Меню", None),
      MenuItem("/dishes", "ShoppingOutlined", "Блюда", Some([Admin, Cook])),
      MenuItem("/orders", "ShoppingCartOutlined", "Заказы", None),
      MenuItem("/reviews", "StarOutlined", "Отзывы", None),
      MenuItem("/subscriptions", "CreditCardOutlined", "Абонементы", Some([Student])),
      MenuItem("/applications", "FileTextOutlined", "Заявки", Some([Admin, Cook])),
      MenuItem("/ingredients", "ExperimentOutlined", "Ингредиенты", Some([Admin, Cook])),
      MenuItem("/users", "TeamOutlined", "Пользователи", Some([Admin])),
      MenuItem("/statistics", "BarChartOutlined", "Статистика", Some([Admin])),
      MenuItem("/reports", "FileTextOutlined", "Отчёты", Some([Admin])),
      MenuItem("/notifications", "BellOutlined", "Уведомления", None) ]
  }

  predicate UniqueKeys(items: seq<MenuItem>)
  {
    forall i, j :: 0 <= i < j < |items| ==> items[i].key != items[j].key
  }

  /** With unique keys, an entry is shown exactly when its item is visible. */
  lemma {:induction false} ShownIffVisible(items: seq<MenuItem>, userRole: Option<UserRole>, i: int)
    requires UniqueKeys(items) && 0 <= i < |items|
    ensures Project(items[i]) in VisibleMenu(items, userRole) <==> Visible(items[i], userRole)
  {
    VisibleMenuIsOrderedSubsequence(items, userRole);
    var idx := VisibleIndices(items, userRole);
    var out := VisibleMenu(items, userRole);
    if Project(items[i]) in out {
      var k :| 0 <= k < |out| && out[k] == Project(items[i]);
      assert idx[k] in idx;
      assert items[idx[k]].key == items[i].key;
      assert idx[k] == i;
    }
  }

  /** Unlike the backend gate, the menu gives administrators no pass: an
      administrator does not see the student-only subscriptions entry, which a
      student does see. */
  lemma AdminMissesStudentEntry()
    ensures Project(AppMenu()[4]) !in VisibleMenu(AppMenu(), Some(Admin))
    ensures Project(AppMenu()[4]) in VisibleMenu(AppMenu(), Some(Student))
  {
    var m := AppMenu();
    assert UniqueKeys(m);
    ShownIffVisible(m, Some(Admin), 4);
  }
}

=== FILE: order_proofs.dfy ===
/** Properties of the order ledger that relate several operations: the
    transition table the guards enforce, the invariant every operation keeps,
    conservation of each user's money, and the refund of a cancelled order. */
module OrderProofs {
  import opened Wrappers
  import opened Enums
  import opened Accounts
  import opened Orders
  import opened Facts

  /** The status edges the guards allow, plus staying put. */
  predicate LegalStep(from: OrderStatus, to: OrderStatus)
  {
    || from == to
    || (from == Paid && to in {Ready, Served, Cancelled})
    || (from == Ready && to in {Served, Cancelled})
  }

  predicate Terminal(s: OrderStatus)
  {
    s == Served || s == Cancelled
  }

  /** `next` extends `prev` with new PAID orders and moves each existing order
      along a legal edge. */
  predicate Evolves(prev: seq<Order>, next: seq<Order>)
  {
    && |prev| <= |next|
    && (forall j :: 0 <= j < |prev| ==> LegalStep(prev[j].status, next[j].status))
    && (forall j :: |prev| <= j < |next| ==> next[j].status == Paid)
  }

  /** Every operation that succeeds follows the transition table; none reaches
      back from SERVED or CANCELLED. */
  lemma {:induction false} OperationsFollowTransitionTable(l: Ledger, catalog: Catalog, userId: int, request: seq<Line>, id: int, now: int)
    ensures Create(l, catalog, userId, request, now).Ok? ==> Evolves(l.orders, Create(l, catalog, userId, request, now).value.orders)
    ensures MarkReady(l, id).Ok? ==> Evolves(l.orders, MarkReady(l, id).value.orders)
    ensures MarkPrepared(l, id).Ok? ==> Evolves(l.orders, MarkPrepared(l, id).value.orders)
    ensures MarkServed(l, id, now).Ok? ==> Evolves(l.orders, MarkServed(l, id, now).value.orders)
    ensures Cancel(l, catalog, id).Ok? ==> Evolves(l.orders, Cancel(l, catalog, id).value.orders)
  {
    var c := Create(l, catalog, userId, request, now);
    if c.Ok? {
      assert forall j :: 0 <= j < |l.orders| ==> c.value.orders[j] == l.orders[j];
    }
  }

  /** A terminal order refuses every transition with a conflict. */
  lemma TerminalIsFinal(l: Ledger, catalog: Catalog, id: int, now: int)
    requires 0 <= id < |l.orders| && Terminal(l.orders[id].status)
    ensures MarkReady(l, id) == Err(Conflict)
    ensures MarkPrepared(l, id) == Err(Conflict)
    ensures MarkServed(l, id, now) == Err(Conflict)
    ensures Cancel(l, catalog, id) == Err(Conflict)
  {
  }

  /** Serving twice: the first call succeeds, the second is a conflict. */
  lemma ServeTwiceConflicts(l: Ledger, id: int, now: int, later: int)
    requires MarkServed(l, id, now).Ok?
    ensures MarkServed(MarkServed(l, id, now).value, id, later) == Err(Conflict)
  {
  }

  /** Cancelling twice: the second call is a conflict, so the owner is credited once. */
  lemma CancelTwiceConflicts(l: Ledger, catalog: Catalog, catalog': Catalog, id: int)
    requires Cancel(l, catalog, id).Ok?
    ensures Cancel(Cancel(l, catalog, id).value, catalog', id) == Err(Conflict)
  {
  }

  // ---------------------------------------------------------------------------
  // The ledger invariant

  /** Balances are non-negative and every stored order has well-formed lines. */
  predicate Valid(l: Ledger)
  {
    && (forall u :: u in l.users ==> l.users[u].balance >= 0)
    && (forall j :: 0 <= j < |l.orders| ==> ValidQuantities(l.orders[j].lines) && DistinctDishes(l.orders[j].lines))
  }

  /** With non-negative prices and quantities of at least one, no order costs less than nothing. */
  lemma {:induction false} CostNonNegative(lines: seq<Line>, catalog: Catalog)
    requires NonNegativePrices(catalog) && ValidQuantities(lines)
    ensures Cost(lines, catalog) >= 0
  {
    if |lines| > 0 {
      var init := lines[..|lines| - 1];
      assert ValidQuantities(init) by {
        forall i | 0 <= i < |init| ensures init[i].quantity >= 1 {
          assert init[i] == lines[i];
        }
      }
      CostNonNegative(init, catalog);
      var last := lines[|lines| - 1];
      if last.dishId in catalog {
        assert catalog[last.dishId] >= 0 && last.quantity >= 1;
        NonNegativeProduct(catalog[last.dishId], last.quantity);
      }
    }
  }

  /** Every operation keeps the invariant; in particular no balance goes negative. */
  lemma {:induction false} OperationsPreserveValid(l: Ledger, catalog: Catalog, userId: int, request: seq<Line>, id: int, now: int)
    requires Valid(l) && NonNegativePrices(catalog)
    ensures Create(l, catalog, userId, request, now).Ok? ==> Valid(Create(l, catalog, userId, request, now).value)
    ensures MarkReady(l, id).Ok? ==> Valid(MarkReady(l, id).value)
    ensures MarkPrepared(l, id).Ok? ==> Valid(MarkPrepared(l, id).value)
    ensures MarkServed(l, id, now).Ok? ==> Valid(MarkServed(l, id, now).value)
    ensures Cancel(l, catalog, id).Ok? ==> Valid(Cancel(l, catalog, id).value)
  {
    var c := Create(l, catalog, userId, request, now);
    if c.Ok? {
      var o := c.value.orders;
      forall j | 0 <= j < |o|
        ensures ValidQuantities(o[j].lines) && DistinctDishes(o[j].lines)
      {
        if j < |l.orders| {
          assert o[j] == l.orders[j];
        }
      }
    }
    var x := Cancel(l, catalog, id);
    if x.Ok? {
      CostNonNegative(l.orders[id].lines, catalog);
      var o := x.value.orders;
      forall j | 0 <= j < |o|
        ensures ValidQuantities(o[j].lines) && DistinctDishes(o[j].lines)
      {
        if j != id {
          assert o[j] == l.orders[j];
        }
      }
    }
    var r := MarkReady(l, id);
    if r.Ok? {
      forall j | 0 <= j < |r.value.orders|
        ensures ValidQuantities(r.value.orders[j].lines) && DistinctDishes(r.value.orders[j].lines)
      {
        if j != id {
          assert r.value.orders[j] == l.orders[j];
        }
      }
    }
    var s := MarkServed(l, id, now);
    if s.Ok? {
      forall j | 0 <= j < |s.value.orders|
        ensures ValidQuantities(s.value.orders[j].lines) && DistinctDishes(s.value.orders[j].lines)
      {
        if j != id {
          assert s.value.orders[j] == l.orders[j];
        }
      }
    }
  }

  // ---------------------------------------------------------------------------
  // Conservation of each user's money

  /** What a user has paid for and not been refunded: the cost of their orders
      that are not cancelled, at the given catalog's prices. */
  function Held(orders: seq<Order>, catalog: Catalog, u: int): int
  {
    if |orders| == 0 then 0
    else Held(orders[..|orders| - 1], catalog, u) + Share(orders[|orders| - 1], catalog, u)
  }

  function Share(o: Order, catalog: Catalog, u: int): int
  {
    if o.userId == u && o.status != Cancelled then Cost(o.lines, catalog) else 0
  }

  /** Balance plus money held in live orders. */
  function Wealth(l: Ledger, catalog: Catalog, u: int): int
    requires u in l.users
  {
    l.users[u].balance + Held(l.orders, catalog, u)
  }

  /** Replacing one order changes the held amount by the difference of the two shares. */
  lemma {:induction false} HeldAfterStore(orders: seq<Order>, catalog: Catalog, u: int, id: int, o: Order)
    requires 0 <= id < |orders|
    ensures Held(orders[id := o], catalog, u) == Held(orders, catalog, u) - Share(orders[id], catalog, u) + Share(o, catalog, u)
  {
    var n := |orders|;
    var next := orders[id := o];
    if id == n - 1 {
      assert next[..n - 1] == orders[..n - 1];
    } else {
      assert next[..n - 1] == orders[..n - 1][id := o];
      HeldAfterStore(orders[..n - 1], catalog, u, id, o);
    }
  }

  /** A created order moves its cost from the owner's balance into a held order. */
  lemma {:induction false} CreateConservesWealth(l: Ledger, catalog: Catalog, userId: int, request: seq<Line>, now: int, u: int)
    requires u in l.users && Create(l, catalog, userId, request, now).Ok?
    ensures Wealth(Create(l, catalog, userId, request, now).value, catalog, u) == Wealth(l, catalog, u)
  {
    var o := Create(l, catalog, userId, request, now).value.orders;
    assert o[..|o| - 1] == l.orders;
  }

  /** A status change that keeps the order live or keeps it cancelled moves no money. */
  lemma {:induction false} StatusChangeConservesWealth(l: Ledger, l': Ledger, catalog: Catalog, id: int, u: int)
    requires u in l.users && 0 <= id < |l.orders|
    requires l'.users == l.users && |l'.orders| == |l.orders| && l'.orders == l.orders[id := l'.orders[id]]
    requires l'.orders[id].lines == l.orders[id].lines && l'.orders[id].userId == l.orders[id].userId
    requires l.orders[id].status != Cancelled && l'.orders[id].status != Cancelled
    ensures Wealth(l', catalog, u) == Wealth(l, catalog, u)
  {
    HeldAfterStore(l.orders, catalog, u, id, l'.orders[id]);
  }

  /** A cancelled order moves its cost from a held order back to the owner's balance. */
  lemma {:induction false} CancelConservesWealth(l: Ledger, catalog: Catalog, id: int, u: int)
    requires u in l.users && Cancel(l, catalog, id).Ok?
    ensures Wealth(Cancel(l, catalog, id).value, catalog, u) == Wealth(l, catalog, u)
  {
    HeldAfterStore(l.orders, catalog, u, id, Cancel(l, catalog, id).value.orders[id]);
  }

  /** With the catalog unchanged, no operation creates or destroys money: for
      every user, balance plus held orders stays the same. */
  lemma {:induction false} OperationsConserveWealth(l: Ledger, catalog: Catalog, userId: int, request: seq<Line>, id: int, now: int, u: int)
    requires u in l.users
    ensures Create(l, catalog, userId, request, now).Ok? ==> Wealth(Create(l, catalog, userId, request, now).value, catalog, u) == Wealth(l, catalog, u)
    ensures MarkReady(l, id).Ok? ==> Wealth(MarkReady(l, id).value, catalog, u) == Wealth(l, catalog, u)
    ensures MarkPrepared(l, id).Ok? ==> Wealth(MarkPrepared(l, id).value, catalog, u) == Wealth(l, catalog, u)
    ensures MarkServed(l, id, now).Ok? ==> Wealth(MarkServed(l, id, now).value, catalog, u) == Wealth(l, catalog, u)
    ensures Cancel(l, catalog, id).Ok? ==> Wealth(Cancel(l, catalog, id).value, catalog, u) == Wealth(l, catalog, u)
  {
    if Create(l, catalog, userId, request, now).Ok? {
      CreateConservesWealth(l, catalog, userId, request, now, u);
    }
    var r := MarkReady(l, id);
    if r.Ok? {
      assert r.value.orders == l.orders[id := r.value.orders[id]];
      StatusChangeConservesWealth(l, r.value, catalog, id, u);
    }
    var s := MarkServed(l, id, now);
    if s.Ok? {
      assert s.value.orders == l.orders[id := s.value.orders[id]];
      StatusChangeConservesWealth(l, s.value, catalog, id, u);
    }
    if Cancel(l, catalog, id).Ok? {
      CancelConservesWealth(l, catalog, id, u);
    }
  }

  // ---------------------------------------------------------------------------
  // Refunds

  /** Cancelling an order just created, with prices unchanged, gives the user
      back exactly what was debited: the users are as before the order. */
  lemma RefundMatchesDebit(l: Ledger, catalog: Catalog, userId: int, request: seq<Line>, now: int)
    requires Create(l, catalog, userId, request, now).Ok?
    ensures Cancel(Create(l, catalog, userId, request, now).value, catalog, |l.orders|).Ok?
    ensures Cancel(Create(l, catalog, userId, request, now).value, catalog, |l.orders|).value.users == l.users
  {
    var created := Create(l, catalog, userId, request, now).value;
    assert created.orders[|l.orders|] == Order(userId, now, None, Paid, request);
    var cancelled := Cancel(created, catalog, |l.orders|).value;
    assert cancelled.users == l.users[userId := l.users[userId]];
  }

  /** The refund is priced at cancel time: a price rise between ordering and
      cancelling credits more than was debited. */
  lemma RepricedRefundDiffers()
    ensures
      var l := Ledger(map[1 := Account(Student, 1000, false, None, 0, [])], []);
      var created := Create(l, map[7 := 300], 1, [Line(7, 1)], 0).value;
      Cancel(created, map[7 := 500], 0).value.users[1].balance == 1200
  {
    var l := Ledger(map[1 := Account(Student, 1000, false, None, 0, [])], []);
    var request := [Line(7, 1)];
    assert request[..0] == [];
    assert Cost(request, map[7 := 300]) == 300;
    assert Cost(request, map[7 := 500]) == 500;
  }

  /** Balance 1000, an order totalling 300: create leaves 700, cancel restores
      1000 and cancels the order, a second cancel is a conflict. */
  lemma CreateCancelScenario()
    ensures
      var l := Ledger(map[1 := Account(Student, 1000, false, None, 0, [])], []);
      var catalog := map[7 := 100, 8 := 50];
      var created := Create(l, catalog, 1, [Line(7, 2), Line(8, 2)], 0);
      && created.Ok?
      && created.value.users[1].balance == 700
      && Cancel(created.value, catalog, 0).Ok?
      && Cancel(created.value, catalog, 0).value.users[1].balance == 1000
      && Cancel(created.value, catalog, 0).value.orders[0].status == Cancelled
      && Cancel(Cancel(created.value, catalog, 0).value, catalog, 0) == Err(Conflict)
  {
    var catalog := map[7 := 100, 8 := 50];
    var request := [Line(7, 2), Line(8, 2)];
    assert request[..1] == [Line(7, 2)];
    assert request[..1][..0] == [];
    assert Cost(request, catalog) == 300;
  }
}

=== FILE: orders.dfy ===
/** The order ledger of backend/app/crud/order.py: creating a paid order debits
    its owner's balance, the status guards of mark_ready / mark_prepared /
    mark_served / cancel move an order through PAID, READY ("prepared"), SERVED
    and CANCELLED, and cancelling credits a refund priced from the catalog.

    Every operation is a pure function from the ledger to a Result: the source
    rolls the session back on every error path, so a failed call leaves nothing
    changed. Orders are stored in creation order and an order's id is its index
    (the database id is an autoincrement and the ledger never deletes orders). */
module Orders {
  import opened Wrappers
  import opened Enums
  import opened Accounts
  import opened Facts

  /** One requested or stored order line. */
  datatype Line = Line(dishId: int, quantity: int)

  datatype Order = Order(
    userId: int,
    orderedAt: int,
    completedAt: Option<int>,
    status: OrderStatus,
    lines: seq<Line>)

  datatype Ledger = Ledger(users: Users, orders: seq<Order>)

  /** Current dish prices by dish id. */
  type Catalog = map<int, int>

  /** Price of one line at the catalog's current price. A line whose dish has
      left the catalog costs nothing: deleting a dish cascades to its order
      lines, so such a line no longer exists. */
  function LineCost(catalog: Catalog, l: Line): int
  {
    if l.dishId in catalog then catalog[l.dishId] * l.quantity else 0
  }

  /** Σ price × quantity over the lines, the total the order is charged. */
  function Cost(lines: seq<Line>, catalog: Catalog): int
  {
    if |lines| == 0 then 0
    else Cost(lines[..|lines| - 1], catalog) + LineCost(catalog, lines[|lines| - 1])
  }

  /** The cost of a request is the sum of the costs of its parts, however it is
      split; in particular the front-to-back loops of create and cancel and
      this back-to-front definition agree. */
  lemma {:induction false} CostOfConcat(a: seq<Line>, b: seq<Line>, catalog: Catalog)
    ensures Cost(a + b, catalog) == Cost(a, catalog) + Cost(b, catalog)
  {
    if |b| > 0 {
      CostOfConcat(a, b[..|b| - 1], catalog);
      assert (a + b)[..|a + b| - 1] == a + b[..|b| - 1];
    } else {
      assert a + b == a;
    }
  }

  /** The set of requested dish ids. */
  function DishIds(lines: seq<Line>): set<int>
  {
    set i | 0 <= i < |lines| :: lines[i].dishId
  }

  predicate AllKnown(lines: seq<Line>, catalog: Catalog)
  {
    forall i :: 0 <= i < |lines| ==> lines[i].dishId in catalog
  }

  /** No dish appears on two lines (the (order_id, dish_id) key of order_items). */
  predicate DistinctDishes(lines: seq<Line>)
  {
    forall i, j :: 0 <= i < j < |lines| ==> lines[i].dishId != lines[j].dishId
  }

  /** The request schema demands `quantity >= 1` on every line. */
  predicate ValidQuantities(lines: seq<Line>)
  {
    forall i :: 0 <= i < |lines| ==> lines[i].quantity >= 1
  }

  predicate NonNegativePrices(catalog: Catalog)
  {
    forall d :: d in catalog ==> catalog[d] >= 0
  }

  /** The source's existence test: the number of catalog dishes found for the
      requested ids equals the number of distinct requested ids. */
  predicate FoundAll(lines: seq<Line>, catalog: Catalog)
  {
    |DishIds(lines) * catalog.Keys| == |DishIds(lines)|
  }

  /** Comparing the counts is the same as every requested dish being in the catalog. */
  lemma {:induction false} FoundAllIff(lines: seq<Line>, catalog: Catalog)
    ensures FoundAll(lines, catalog) <==> AllKnown(lines, catalog)
  {
    FoundCountIff(DishIds(lines), catalog.Keys);
    if !AllKnown(lines, catalog) {
      var i :| 0 <= i < |lines| && lines[i].dishId !in catalog;
      assert lines[i].dishId in DishIds(lines);
    }
  }

  /** The loop of `create` accumulating the total cost of the requested lines. */
  method ComputeTotal(lines: seq<Line>, catalog: Catalog) returns (total: int)
    requires AllKnown(lines, catalog)
    ensures total == Cost(lines, catalog)
  {
    total := 0;
    var i := 0;
    while i < |lines|
      invariant 0 <= i <= |lines|
      invariant total == Cost(lines[..i], catalog)
    {
      assert lines[..i + 1][..i] == lines[..i];
      total := total + catalog[lines[i].dishId] * lines[i].quantity;
      i := i + 1;
    }
    assert lines[..i] == lines;
  }

  /** `get_by_id`: the order with that id, or 404. */
  function Find(l: Ledger, id: int): (r: Result<Order>)
    ensures r.Ok? <==> 0 <= id < |l.orders|
    ensures r.Ok? ==> r.value == l.orders[id]
    ensures r.Err? ==> r.error == NotFound
  {
    if 0 <= id < |l.orders| then Ok(l.orders[id]) else Err(NotFound)
  }

  /** `create`: the acting user must exist, every line must carry a quantity of
      at least 1, the list must be non-empty, every requested dish must exist and
      the balance must cover the total. The balance is debited by the total and a
      PAID order holding the requested lines is appended. Requesting one dish on
      two lines passes those checks but breaks the order-line key at commit, and
      the rollback answers 500. */
  function Create(l: Ledger, catalog: Catalog, userId: int, request: seq<Line>, now: int): (r: Result<Ledger>)
    ensures userId !in l.users ==> r == Err(NotFound)
    ensures userId in l.users && !ValidQuantities(request) ==> r == Err(InvalidField)
    ensures userId in l.users && ValidQuantities(request) && |request| == 0 ==> r == Err(EmptyRequest)
    ensures userId in l.users && ValidQuantities(request) && |request| > 0 && !AllKnown(request, catalog) ==>
              r == Err(UnknownReference)
    ensures userId in l.users && ValidQuantities(request) && |request| > 0 && AllKnown(request, catalog)
            && l.users[userId].balance < Cost(request, catalog) ==>
              r == Err(InsufficientFunds)
    ensures userId in l.users && ValidQuantities(request) && |request| > 0 && AllKnown(request, catalog)
            && Cost(request, catalog) <= l.users[userId].balance && !DistinctDishes(request) ==>
              r == Err(StorageFailure)
    ensures r.Ok? <==>
              && userId in l.users
              && ValidQuantities(request)
              && |request| > 0
              && AllKnown(request, catalog)
              && Cost(request, catalog) <= l.users[userId].balance
              && DistinctDishes(request)
    ensures r.Ok? ==>
              && userId in l.users
              && r.value.users == l.users[userId := UpdateBalance(l.users[userId], -Cost(request, catalog))]
              && r.value.users[userId].balance >= 0
              && r.value.orders == l.orders + [Order(userId, now, None, Paid, request)]
  {
    if userId !in l.users then Err(NotFound)
    else if !ValidQuantities(request) then Err(InvalidField)
    else if |request| == 0 then Err(EmptyRequest)
    else if !FoundAll(request, catalog) then
      FoundAllIff(request, catalog);
      Err(UnknownReference)
    else
      FoundAllIff(request, catalog);
      var total := Cost(request, catalog);
      var user := l.users[userId];
      if user.balance < total then Err(InsufficientFunds)
      else if !DistinctDishes(request) then Err(StorageFailure)
      else
        Ok(Ledger(l.users[userId := UpdateBalance(user, -total)],
                  l.orders + [Order(userId, now, None, Paid, request)]))
  }

  /** Replaces one stored order. */
  function Store(l: Ledger, id: int, o: Order): Ledger
    requires 0 <= id < |l.orders|
  {
    l.(orders := l.orders[id := o])
  }

  /** `mark_ready`: only a PAID order may become READY; the balance is untouched. */
  function MarkReady(l: Ledger, id: int): (r: Result<Ledger>)
    ensures r.Ok? <==> 0 <= id < |l.orders| && l.orders[id].status == Paid
    ensures !(0 <= id < |l.orders|) ==> r == Err(NotFound)
    ensures 0 <= id < |l.orders| && l.orders[id].status != Paid ==> r == Err(Conflict)
    ensures r.Ok? ==>
              && r.value.users == l.users
              && |r.value.orders| == |l.orders|
              && (forall j :: 0 <= j < |l.orders| && j != id ==> r.value.orders[j] == l.orders[j])
              && r.value.orders[id].status == Ready
              && r.value.orders[id].(status := l.orders[id].status) == l.orders[id]
  {
    var o :- Find(l, id);
    if o.status != Paid then Err(Conflict)
    else Ok(Store(l, id, o.(status := Ready)))
  }

  /** `mark_prepared`: the same guard and effect as `mark_ready`, without the
      notification to the customer. */
  function MarkPrepared(l: Ledger, id: int): (r: Result<Ledger>)
    ensures r.Ok? <==> 0 <= id < |l.orders| && l.orders[id].status == Paid
    ensures 0 <= id < |l.orders| && l.orders[id].status != Paid ==> r == Err(Conflict)
    ensures r == MarkReady(l, id)
  {
    var o :- Find(l, id);
    if o.status != Paid then Err(Conflict)
    else Ok(Store(l, id, o.(status := Ready)))
  }

  /** `mark_served`: a PAID or READY order becomes SERVED and records its
      completion time; a SERVED or CANCELLED order is a conflict. */
  function MarkServed(l: Ledger, id: int, now: int): (r: Result<Ledger>)
    ensures r.Ok? <==> 0 <= id < |l.orders| && l.orders[id].status in {Paid, Ready}
    ensures !(0 <= id < |l.orders|) ==> r == Err(NotFound)
    ensures 0 <= id < |l.orders| && l.orders[id].status in {Served, Cancelled} ==> r == Err(Conflict)
    ensures r.Ok? ==>
              && r.value.users == l.users
              && |r.value.orders| == |l.orders|
              && (forall j :: 0 <= j < |l.orders| && j != id ==> r.value.orders[j] == l.orders[j])
              && r.value.orders[id].status == Served
              && r.value.orders[id].completedAt == Some(now)
              && r.value.orders[id].lines == l.orders[id].lines
              && r.value.orders[id].userId == l.orders[id].userId
              && r.value.orders[id].orderedAt == l.orders[id].orderedAt
  {
    var o :- Find(l, id);
    if o.status !in {Ready, Paid} then Err(Conflict)
    else Ok(Store(l, id, o.(status := Served, completedAt := Some(now))))
  }

  /** `cancel`: a SERVED or CANCELLED order is a conflict; otherwise the owner
      is credited Σ price × quantity over the order's lines at the CURRENT
      catalog prices and the order becomes CANCELLED. The owner row is fetched
      with `scalar_one`, so a missing owner is an unhandled error (500). */
  function Cancel(l: Ledger, catalog: Catalog, id: int): (r: Result<Ledger>)
    ensures r.Ok? <==>
              && 0 <= id < |l.orders|
              && l.orders[id].status in {Paid, Ready}
              && l.orders[id].userId in l.users
    ensures !(0 <= id < |l.orders|) ==> r == Err(NotFound)
    ensures 0 <= id < |l.orders| && l.orders[id].status in {Served, Cancelled} ==> r == Err(Conflict)
    ensures r.Ok? ==>
              var owner := l.orders[id].userId;
              && r.value.users == l.users[owner := UpdateBalance(l.users[owner], Cost(l.orders[id].lines, catalog))]
              && |r.value.orders| == |l.orders|
              && (forall j :: 0 <= j < |l.orders| && j != id ==> r.value.orders[j] == l.orders[j])
              && r.value.orders[id] == l.orders[id].(status := Cancelled)
  {
    var o :- Find(l, id);
    if o.status == Served then Err(Conflict)
    else if o.status == Cancelled then Err(Conflict)
    else if o.userId !in l.users then Err(StorageFailure)
    else
      assert o.status in {Paid, Ready} by { assert o.status.Paid? || o.status.Ready?; }
      var refund := Cost(o.lines, catalog);
      var owner := l.users[o.userId];
      Ok(Ledger(l.users[o.userId := UpdateBalance(owner, refund)],
                l.orders[id := o.(status := Cancelled)]))
  }
}

=== FILE: pagination.dfy ===
/** The offset/limit/page-count arithmetic of backend/app/crud/paginating.py.
    The query is abstracted as the full ordered result `rows`; OFFSET/LIMIT
    become a slice of it and the count query becomes its length. */
module Pagination {
  import opened Wrappers
  import opened Facts

  /** PaginationParams: `page >= 1` and `1 <= limit <= 100`. */
  datatype Params = Params(page: int, limit: int)

  datatype Page<T> = Page(items: seq<T>, total: int, page: int, pages: int)

  function Min(a: int, b: int): int { if a <= b then a else b }

  /** Index of the first row of a page. */
  function Offset(page: int, size: int): (offset: int)
    requires page >= 1 && size >= 0
    ensures offset >= 0
  {
    NonNegativeProduct(page - 1, size);
    (page - 1) * size
  }

  /** The next page starts where this one ends. */
  lemma NextOffset(page: int, size: int)
    requires page >= 1 && size >= 0
    ensures Offset(page, size) == (page - 1) * size
    ensures Offset(page, size) + size == page * size
  {
  }

  /** ceil(total / size) for a positive size. */
  function PageCount(total: nat, size: int): (pages: nat)
    requires size > 0
    ensures total > 0 ==> (pages - 1) * size < total <= pages * size
    ensures total == 0 <==> pages == 0
  {
    (total + size - 1) / size
  }

  /** `paginate` with the page size given directly: the rows at positions
      [offset, offset + size), the unpaginated count, the page echoed back and
      the number of pages (0 when the size is not positive). */
  function Paginate<T>(rows: seq<T>, page: int, size: int): (r: Page<T>)
    requires page >= 1 && size >= 0
    ensures r.total == |rows| && r.page == page
    ensures |r.items| <= size
    ensures |r.items| == (if Offset(page, size) >= |rows| then 0 else Min(size, |rows| - Offset(page, size)))
    ensures forall i :: 0 <= i < |r.items| ==>
              Offset(page, size) + i < |rows| && r.items[i] == rows[Offset(page, size) + i]
    ensures size > 0 && |rows| > 0 ==> (r.pages - 1) * size < |rows| <= r.pages * size
    ensures size > 0 ==> (r.pages == 0 <==> |rows| == 0)
    ensures size == 0 ==> r.pages == 0
  {
    var offset := Offset(page, size);
    var from := Min(offset, |rows|);
    var to := Min(offset + size, |rows|);
    Page(rows[from..to], |rows|, page, if size > 0 then PageCount(|rows|, size) else 0)
  }

  /** The rows of pages 1..n laid end to end. */
  function PagesUpTo<T>(rows: seq<T>, size: int, n: nat): seq<T>
    requires size >= 0
  {
    if n == 0 then [] else PagesUpTo(rows, size, n - 1) + Paginate(rows, n, size).items
  }

  /** A page is a contiguous slice of the rows. */
  lemma PageIsSlice<T>(rows: seq<T>, page: int, size: int)
    requires page >= 1 && size >= 0
    ensures Paginate(rows, page, size).items
            == rows[Min(Offset(page, size), |rows|)..Min(Offset(page, size) + size, |rows|)]
  {
  }

  /** The first n pages are exactly the first n × size rows. */
  lemma {:induction false} PagesUpToIsPrefix<T>(rows: seq<T>, size: int, n: nat)
    requires size > 0
    ensures PagesUpTo(rows, size, n) == rows[..Min(n * size, |rows|)]
  {
    if n > 0 {
      PagesUpToIsPrefix(rows, size, n - 1);
      NextOffset(n, size);
      PageIsSlice(rows, n, size);
      var from := Min(Offset(n, size), |rows|);
      var to := Min(Offset(n, size) + size, |rows|);
      assert from == Min((n - 1) * size, |rows|);
      assert to == Min(n * size, |rows|);
      assert rows[..from] + rows[from..to] == rows[..to];
    }
  }

  /** Walking every page returns every row once, in order. */
  lemma AllPagesCoverRows<T>(rows: seq<T>, size: int)
    requires size > 0
    ensures PagesUpTo(rows, size, Paginate(rows, 1, size).pages) == rows
  {
    var pages := Paginate(rows, 1, size).pages;
    PagesUpToIsPrefix(rows, size, pages);
    assert Min(pages * size, |rows|) == |rows|;
  }

  /** The attributes of a request-parameter object, by name: reading a name
      that is not among them raises AttributeError. */
  type Attributes = map<string, int>

  /** A PaginationParams instance exposes exactly its two declared fields. */
  function DeclaredAttributes(params: Params): (attrs: Attributes)
    ensures attrs.Keys == {"page", "limit"}
    ensures attrs["page"] == params.page && attrs["limit"] == params.limit
  {
    map["page" := params.page, "limit" := params.limit]
  }

  /** `paginate` as written: the page comes from the `page` attribute and the
      page size from the `size` attribute. The count query runs first; a missing
      attribute then raises before the page query runs (AttributeMissing). The
      page attribute, when present, is the validated `page >= 1`. With a negative
      size the offset is not positive and SQLite, the configured backend, reads
      a non-positive OFFSET as 0 and a negative LIMIT as no limit, so the page
      holds every row and the page count is 0. */
  function PaginateAsWritten<T>(rows: seq<T>, attrs: Attributes): (r: Result<Page<T>>)
    requires "page" in attrs ==> attrs["page"] >= 1
    ensures "page" !in attrs || "size" !in attrs ==> r == Err(AttributeMissing)
    ensures r.Ok? <==> "page" in attrs && "size" in attrs
    ensures r.Ok? && attrs["size"] >= 0 ==> r.value == Paginate(rows, attrs["page"], attrs["size"])
    ensures r.Ok? && attrs["size"] < 0 ==> r.value == Page(rows, |rows|, attrs["page"], 0)
  {
    if "page" !in attrs || "size" !in attrs then Err(AttributeMissing)
    else if attrs["size"] < 0 then Ok(Page(rows, |rows|, attrs["page"], 0))
    else Ok(Paginate(rows, attrs["page"], attrs["size"]))
  }

  /** Every call with a PaginationParams instance fails: it has no `size`. */
  lemma PaginateAsWrittenAlwaysFails<T>(rows: seq<T>, params: Params)
    requires params.page >= 1 && 1 <= params.limit <= 100
    ensures PaginateAsWritten(rows, DeclaredAttributes(params)) == Err(AttributeMissing)
  {
  }

  /** `paginate` reading the declared `limit` as the page size. */
  function PaginateParams<T>(rows: seq<T>, params: Params): (r: Page<T>)
    requires params.page >= 1 && 1 <= params.limit <= 100
    ensures r.total == |rows| && r.page == params.page
    ensures |r.items| <= params.limit
    ensures |r.items| == (if Offset(params.page, params.limit) >= |rows| then 0
                          else Min(params.limit, |rows| - Offset(params.page, params.limit)))
    ensures forall i :: 0 <= i < |r.items| ==>
              Offset(params.page, params.limit) + i < |rows|
              && r.items[i] == rows[Offset(params.page, params.limit) + i]
    ensures |rows| > 0 ==> (r.pages - 1) * params.limit < |rows| <= r.pages * params.limit
    ensures r.pages == 0 <==> |rows| == 0
  {
    Paginate(rows, params.page, params.limit)
  }

  /** The corrected paging is what the code as written would compute had the
      parameters carried their limit under the name it reads. */
  lemma CorrectedReadsLimitAsSize<T>(rows: seq<T>, params: Params)
    requires params.page >= 1 && 1 <= params.limit <= 100
    ensures PaginateAsWritten(rows, DeclaredAttributes(params)["size" := params.limit])
            == Ok(PaginateParams(rows, params))
  {
  }
}

=== FILE: wrappers.dfy ===
/** Failure-compatible wrappers shared by every module of the canteen model, and
    the error taxonomy the backend raises as HTTP exceptions. */
module Wrappers {

  datatype Option<+T> = None | Some(value: T)

  /** Every way an operation of the model can refuse a request. Several kinds
      share one HTTP status; they are kept apart so that lemmas can say which
      guard fired. */
  datatype Error =
    | EmptyRequest        // 400: an order or application without lines
    | UnknownReference    // 400: a requested dish or ingredient id does not exist
    | InsufficientFunds   // 400: balance below the order total
    | BannedUser          // 400: banned users cannot buy subscriptions
    | AlreadyPresent      // 400: allergy already recorded
    | WrongTokenType      // 401: token whose type is not "access"
    | Forbidden           // 403: role not allowed
    | NotFound            // 404: unknown user, order, application, ingredient or allergy
    | Conflict            // 409: illegal status transition
    | InvalidField        // 422: request body rejected by schema validation
    | StorageFailure      // 500: the database refused the write and the session rolled back
    | AttributeMissing    // 500: an attribute read on an object that does not have it

  /** The HTTP status code the backend answers with for each kind. */
  function StatusCode(e: Error): (code: int)
    ensures 400 <= code < 600
    ensures code == 400 <==> e in {EmptyRequest, UnknownReference, InsufficientFunds, BannedUser, AlreadyPresent}
    ensures code == 409 <==> e == Conflict
    ensures code == 404 <==> e == NotFound
  {
    match e
    case EmptyRequest => 400
    case UnknownReference => 400
    case InsufficientFunds => 400
    case BannedUser => 400
    case AlreadyPresent => 400
    case WrongTokenType => 401
    case Forbidden => 403
    case NotFound => 404
    case Conflict => 409
    case InvalidField => 422
    case StorageFailure => 500
    case AttributeMissing => 500
  }

  datatype Result<+T> = Ok(value: T) | Err(error: Error) {
    predicate IsFailure() {
      Err?
    }

    function PropagateFailure<U>(): Result<U>
      requires Err?
    {
      Err(error)
    }

    function Extract(): T
      requires Ok?
    {
      value
    }
  }
}
